=== FILE: README.md ===
# Restaurant reservations and menu: a Dafny model

This project models the core of a restaurant's reservation and menu back end.

- **Seat ledger.** One day has 70 seats. Reservations are pending, confirmed or
  rejected; pending and confirmed ones hold their guests' seats. Before the
  seats left for today are counted, two correction passes run:
  - a previous-day reset rejects every pending or confirmed reservation dated
    before today;
  - a same-day expiry rejects today's reservations that are not checked in
    once their time plus 15 minutes has passed.
- **Record updates.** Status changes and check-ins are field-level updates, and
  new reservations are created as pending.
- **HTTP handlers.** The model covers the decision logic of the reservations
  POST and PATCH handlers and of the availability GET handler.
- **E-mail helpers.** HTML escaping, the guest-count label and the rule for
  showing special requests.
- **Schemas.** The constraints of the reservation and menu-item schemas.
- **Menu maintenance.** Seeding the menu, its two read queries, and the two
  procedures that add appetizers. One of them picks new ids by a string sort;
  see "Findings".

The database is an immutable `seq` of records. Every operation returns the
sequence it leaves behind. The current day and moment come in as a `Clock`
value instead of a system-clock read. Things the handlers call but whose code
is not modelled come in as function parameters: the per-date availability
check, the per-date seat count, and the SMS provider's outcome.

Modules and files:

| file | module | models |
|---|---|---|
| `wrappers.dfy` | `Wrappers` | `Option`, `Result`, the two ways a save is refused |
| `text.dfy` | `Text` | JavaScript string helpers: digits, `trim`, string `<`, `parseInt`, number rendering |
| `calendar.dfy` | `Calendar` | `YYYY-MM-DD` dates and their order, the injected clock, `HH:MM` times |
| `reservations.dfy` | `Reservations` | the reservation record and its schema constraints |
| `ledger.dfy` | `Ledger` | the reservation part of `lib/data.ts` |
| `reservations_route.dfy` | `ReservationsRoute` | POST and PATCH `/api/reservations` |
| `availability_route.dfy` | `AvailabilityRoute` | GET `/api/availability` |
| `email.dfy` | `Email` | the pure helpers of the admin e-mail |
| `menu.dfy` | `Menu` | the menu-item record, its schema, the seed catalogue, seeding and the read queries |
| `menu_ids.dfy` | `MenuIds` | the two rules for choosing a new menu id |
| `appetizers.dfy` | `Appetizers` | the add-appetizers endpoint and the update-appetizers script |

Some modelling choices:

- Prices are whole cents.
- The seed catalogue is written section by section (appetizers, main courses,
  desserts, beverages, wine, beer, cocktails), with the enumerations typed.
  Each photo address is built by `Menu.UnsplashPhoto` from the photo's id and
  spells the same URL as the catalogue.
- Dates stay strings, as in the code. `Calendar.DateOrder` proves that the
  string `<` the code uses agrees with calendar order.
- A time is read the way `split(':').map(Number)` reads it. A time that does
  not read as a number gives NaN, and a reservation dated today whose time
  does not read as a number never expires.
- A required string field that is empty is refused by the schema. A save that
  breaks the schema or the unique `id` index is a `SaveError`, and the handlers
  turn it into a 500.

## Model

| member | source | states |
|---|---|---|
| `Ledger.IsReservationExpired` | lib/data.ts:323-345 | A reservation dated before today is always expired. One that is expired without being dated before today is dated today and has a time that reads as a number, so a reservation dated after today never expires, and neither does a reservation dated today whose time does not read as a number. |
| `Ledger.ExpiredByDay` | lib/data.ts:323-345 | A reservation dated before today is expired whatever its time; one dated after today is not. |
| `Ledger.ExpiredToday` | lib/data.ts:332-341 | Today's reservation at a well-formed `HH:MM` expires exactly when now is strictly later than that time plus 15 minutes. |
| `Ledger.CancelPreviousDayReservations` | lib/data.ts:348-370 | Exactly the pending and confirmed reservations dated before today become rejected with the daily-reset reason. Checked-in ones are not exempt. Every other record is unchanged, and the count is the number of records changed. |
| `Ledger.CancelExpiredReservations` | lib/data.ts:373-401 | Only today's pending or confirmed, not checked-in reservations whose grace period is strictly past become rejected with the no-show reason. Checked-in records and other days are never touched, and the count is the number changed. |
| `Ledger.RejectWhere` | lib/data.ts:354-363 | The shared update of both passes rejects the selected records with the given reason, leaves the rest as they were, and counts exactly the records changed. |
| `Ledger.ResetIdempotent` | lib/data.ts:354-357 | A second previous-day reset right after the first changes nothing and reports 0. |
| `Ledger.ExpiryIdempotent` | lib/data.ts:378-382 | A second expiry pass right after the first changes nothing and reports 0. |
| `Ledger.PassesCommute` | lib/data.ts:348-401 | The two passes touch disjoint records, so either order leaves the same store. |
| `Ledger.GetAvailableSeats` | lib/data.ts:403-425 | After both passes, the seats left equal 70 minus the guests of today's active reservations the passes keep, floored at 0. A missing guest count counts as 0. The result is never negative and never above 70 when guest counts are non-negative. The store it leaves is the one the reset and then the expiry leave. |
| `Ledger.BookedAfterPasses` | lib/data.ts:411-422 | Today's bookings in the corrected store equal an independent sum over the uncorrected store of the records the passes leave active. |
| `Ledger.CheckAvailability` | lib/data.ts:427-434 | A request fits exactly when the requested guests do not exceed the seats left, and the seats left are reported with the answer. The store it leaves is the one the previous-day reset and then the no-show pass leave, as `getAvailableSeats` writes both to the database. |
| `Ledger.CheckAvailabilityMonotone` | lib/data.ts:427-434 | If a number of guests fits, any smaller number fits too. |
| `Ledger.PassesPreserveValidStore` | lib/data.ts:348-425 | The passes and the seat count keep every record valid under the schema and keep ids unique. |
| `Ledger.PassesPreserveReasons` | lib/data.ts:348-401 | The passes give every record they reject a reason, so they keep "a reason exactly when rejected". |
| `Ledger.FindById` | lib/data.ts:266-274 | The lookup finds nothing exactly when no record has the id; otherwise it finds the first record that has it. |
| `Ledger.UpdateReservationStatus` | lib/data.ts:253-281 | An unknown id gives no result and changes nothing. Otherwise the first record with the id takes the new status. A status other than rejected clears the reason; rejected with a reason stores it; rejected without one keeps any earlier reason. No other field or record changes. |
| `Ledger.UpdateCheckedInStatus` | lib/data.ts:283-308 | An unknown id gives no result and changes nothing. Otherwise the flag is set; checking in stamps `checkedInAt` with now and checking out clears it. The status, every other field and every other record stay the same. |
| `Ledger.CheckInThenOut` | lib/data.ts:283-308 | Checking in and then out leaves the record as it was apart from a cleared check-in, and the status never changes. |
| `Ledger.FirstIndexUnique` | lib/data.ts:266-270 | The lookup finds the position before which the id does not occur. |
| `Ledger.UpdatesPreserveValidStore` | lib/data.ts:253-308 | Neither update changes an id or a constrained field, so a valid store stays valid. |
| `Ledger.RejectWithoutReasonLeavesNoReason` | lib/data.ts:259-264 | On its own, rejecting a record that has no reason, without giving one, leaves a rejected record with no reason. |
| `Ledger.CreateReservation` | lib/data.ts:236-251 | The save succeeds exactly when the record passes the schema and the id is new. The new record is appended as pending, with no reason, not checked in, and with an absent or empty email stored as "". Every input field is kept. Validation errors come before duplicate keys. A valid store stays valid. |
| `Reservations.ParseStatus` | lib/models/Reservation.ts:41-45 | Exactly the three names pending, confirmed and rejected are statuses, and each is read back as itself. |
| `Reservations.StatusNameRoundTrip` | lib/models/Reservation.ts:41-45 | Every status is read back from its own name. |
| `Calendar.DateOrder` | lib/data.ts:328-330 | On `YYYY-MM-DD` strings, string `<` agrees with calendar order, and two dates are the same string exactly when they are the same day. |
| `Calendar.ClockMinutes` | lib/data.ts:335 | A time without a `:` reads as NaN. With `Calendar.ClockTimeMinutes`, a well-formed `HH:MM` reads as its minutes after midnight. |
| `Calendar.IsBeforeToday` | app/api/reservations/route.ts:37-48 | A date counts as past only when it has the `YYYY-MM-DD` shape and sorts before today. On dates with month 01–12 and day 01–31, the test agrees exactly with the string `<` the ledger uses. |
| `Calendar.ClockTimeMinutes` | lib/data.ts:335-337 | A well-formed `HH:MM` time reads as `HH * 60 + MM` minutes. |
| `Calendar.IndexOf` | lib/data.ts:335 | The split finds the first `:`, or reports that there is none. |
| `Text.NatToString` | scripts/update-appetizers.ts:82 | The decimal rendering of a number is a non-empty digit string that reads back as the number, with no leading zero. |
| `Text.ParseNatToString` | scripts/update-appetizers.ts:76 | `parseInt` reads a rendered number back as that number, in either radix mode. |
| `Text.DigitsOrder` | app/api/menu/add-appetizers/route.ts:41 | On digit strings of equal length, string order is numeric order. |
| `Text.Trim` | lib/email.ts:114 | The result is the input with its leading and trailing ECMAScript whitespace removed: a contiguous slice, everything cut off on either side is whitespace, and the result neither starts nor ends with whitespace. |
| `Text.ParseInt` | scripts/update-appetizers.ts:76 | The empty string reads as NaN. In decimal mode, a string that starts with a digit reads as a non-negative number. With `Text.ParseAllDigits` and `Text.ParseNatToString`, a digit string reads as its value and a rendered number reads back as itself. |
| `Text.TrimIdempotent` | lib/email.ts:114 | Trimming twice is trimming once. |
| `Text.StrLessTransitive` | lib/data.ts:328 | The string order the code uses on dates and ids is transitive. |
| `Text.StrLessTotal` | lib/data.ts:328 | Of two different strings, one sorts before the other. |
| `ReservationsRoute.Post` | app/api/reservations/route.ts:25-84 | The checks run in order. A falsy required field, a guest count of 0 included, gives a 400. A date before today gives a 400, and today is accepted. An availability refusal gives a 400 that echoes the seats left and the guests asked for. Each refusal leaves the store unchanged. A 201 comes exactly when every check passes and the save is accepted; it appends a pending reservation whose email is "" and whose special requests default to "". When every check passes but the save is refused, the answer is a 500 with "Failed to create reservation" and the store is unchanged. |
| `ReservationsRoute.Patch` | app/api/reservations/route.ts:86-185 | A request without an id gives a 400. A boolean `checkedIn` takes the check-in path only. A missing status, an unknown status, and a rejection without a reason each give a 400 with the store unchanged. An unknown id on either path gives a 404 with the store unchanged. A 200 on the status path carries the updated record. The 200 body's `smsStatus` and `smsError` are `SmsFields` of the new status and the SMS outcome. |
| `ReservationsRoute.SmsFields` | app/api/reservations/route.ts:145-177 | `_smsStatus` is "sent" exactly when a confirmation or rejection SMS was sent. `_smsError` is set exactly when that attempt threw, and it is never empty. |
| `ReservationsRoute.SmsOnlyChangesDiagnostics` | app/api/reservations/route.ts:145-177 | The SMS outcome changes neither the store, nor the response code, nor the reservation returned. |
| `ReservationsRoute.CheckInIgnoresStatus` | app/api/reservations/route.ts:99-108 | With a boolean `checkedIn`, the status and reason in the body make no difference. |
| `ReservationsRoute.HandlersPreserveValidStore` | app/api/reservations/route.ts:25-185 | Whatever the request and the collaborators' answers, both handlers keep a valid store valid. |
| `ReservationsRoute.HandlersPreserveReasons` | app/api/reservations/route.ts:111-143 | Both handlers keep "a reason exactly when rejected", which the status update alone does not. |
| `ReservationsRoute.ZeroGuestsAsTextFailsOnSave` | app/api/reservations/route.ts:30-83 | The guest count "0" sent as text passes the presence check but not the schema, so the handler answers 500, not 400. |
| `ReservationsRoute.FullHouseRefusesOneMore` | app/api/reservations/route.ts:50-64 | With one confirmed 70-guest reservation today, a request for one more guest is refused with 0 seats left, and nothing is saved. |
| `AvailabilityRoute.EffectiveDate` | app/api/availability/route.ts:18-20 | The effective date is the query parameter when it has the `YYYY-MM-DD` shape, and today otherwise. |
| `AvailabilityRoute.ShapeOnlyDateAccepted` | app/api/availability/route.ts:20 | The check is on the shape only: "2024-13-99" is accepted although it names month 13 and day 99. |
| `AvailabilityRoute.GetAvailability` | app/api/availability/route.ts:22-49 | The total capacity is 70. Available plus booked is 70. The confirmed breakdown sums the guests of the date's confirmed records and the pending one those of its pending records. Together they equal the ledger's bookings for the date, and neither is negative. |
| `AvailabilityRoute.StatusSeatsAppend` | app/api/availability/route.ts:27-41 | A record adds its guests to the breakdown of its own status and date, and leaves every other breakdown unchanged. |
| `AvailabilityRoute.StatusSplit` | app/api/availability/route.ts:27-41 | The confirmed sum plus the pending sum equals the seats held on the date. |
| `AvailabilityRoute.StatusSeatsNonNegative` | app/api/availability/route.ts:31-41 | A per-status sum is never negative when no record has a negative guest count. |
| `Email.EscapeChar` | lib/email.ts:167-174 | A character is kept as it is exactly when it is not one of the five special characters. Its replacement holds no markup character and is 4 characters longer for `&`, 3 for `<` or `>`, and 5 for `"` or `'`. |
| `Email.EscapeHtml` | lib/email.ts:166-175 | The output holds no `<`, `>`, `"` or `'`. Its length is the input's plus 4 per `&`, 3 per `<` or `>`, and 5 per `"` or `'`. |
| `Email.EscapeRoundTrip` | lib/email.ts:166-175 | Escaping loses nothing: reading the five entities back gives the original text. |
| `Email.EscapeConcat` | lib/email.ts:174 | Escaping a concatenation is concatenating the escapes. |
| `Email.EscapeIdentity` | lib/email.ts:174 | Text without special characters is left unchanged. |
| `Email.GuestLabel` | lib/email.ts:109 | The label is "guest" exactly when the count is 1, and "guests" otherwise. |
| `Email.SpecialRequestsBlock` | lib/email.ts:113-127 | The block is shown exactly when the trimmed text is non-empty. It shows that trimmed text escaped, so it holds no markup character. |
| `Menu.ParseCategory` | lib/models/MenuItem.ts:33-37 | A string is a category exactly when it is one of the seven names, and it is read back as that category. |
| `Menu.CategoryNameRoundTrip` | lib/models/MenuItem.ts:33-37 | Every category is read back from its own name. |
| `Menu.ParseTag` | lib/models/MenuItem.ts:46-50 | A string is a tag exactly when it is one of the four names, and it is read back as that tag. |
| `Menu.TagNameRoundTrip` | lib/models/MenuItem.ts:46-50 | Every tag is read back from its own name. |
| `Menu.ParseTags` | lib/models/MenuItem.ts:46-50 | A tag list is accepted exactly when every element is a tag, and each element is kept in order. |
| `Menu.BuildMenuItem` | lib/models/MenuItem.ts:4-54 | A document is built exactly when the id, name and description are present and the category and tags are in their enumerations. The price has no bound. `available` defaults to true, and allergens and tags default to empty. |
| `Menu.CreateMenuItem` | lib/models/MenuItem.ts:6-10 | A create succeeds exactly when the draft is valid and the id is new. It appends the built document and keeps ids unique. |
| `Menu.GetMenuItems` | lib/data.ts:213-220 | The result holds exactly the available items, each as many times as the store holds it, so nothing is repeated or dropped. |
| `Menu.GetMenuItemsByCategory` | lib/data.ts:222-225 | The result holds exactly the available items of the category, each as many times as the store holds it. |
| `Menu.MenuReadsKeepOrder` | lib/data.ts:213-225 | Both reads keep store order: reading a store made of two parts gives the first part's items followed by the second's. |
| `Menu.CategoriesPartitionMenu` | lib/data.ts:213-225 | Every available item is listed under exactly one category, so the seven lists together are as long as the menu. |
| `Menu.SeedId` | lib/data.ts:442-445 | The item at a position gets its 1-based position as id, which reads back as that number. |
| `Menu.SeedMenuItems` | lib/data.ts:437-449 | A non-empty menu is left alone. An empty one gets the whole catalogue in order, each item built with defaults under the ids "1", "2", ..., and the ids are unique. |
| `Menu.SeededMenu` | lib/data.ts:442-446 | Each catalogue entry becomes the document the schema builds for it under its position id, and those ids are unique. |
| `Menu.CatalogueValid` | lib/data.ts:7-211 | The seed catalogue has 22 entries, and each has the name and description the schema requires. |
| `Menu.TagNamesRoundTrip` | lib/models/MenuItem.ts:46-50 | A typed tag list written out as strings is read back as the same list. |
| `Menu.EntryDraft` | lib/data.ts:442-446 | A catalogue entry handed to the schema passes it exactly when its name and description are non-empty. |
| `Menu.EntryBuildsItem` | lib/data.ts:442-446 | The schema stores a catalogue entry with exactly the entry's fields: its category and tags unchanged, and left-out tags and allergens as empty lists. |
| `MenuIds.MaxNumericId` | scripts/update-appetizers.ts:71-81 | The scan's maximum bounds every id that reads as a number. It is either the starting value or one of those numbers. |
| `MenuIds.EmptyMenuGivesOne` | scripts/update-appetizers.ts:71-82 | An empty menu gets the id "1". |
| `MenuIds.NextNumericId` | scripts/update-appetizers.ts:71-82 | The next id reads as one more than the largest numeric id, which is 1 for a menu with none. It is greater than every numeric id and equals no existing id. |
| `MenuIds.StrMax` | app/api/menu/add-appetizers/route.ts:41 | The descending sort's first id is one of the ids, and no id sorts after it. An empty menu has none. |
| `MenuIds.NextIdByStringSort` | app/api/menu/add-appetizers/route.ts:41-46 | An empty menu gives "1", and the next id is never empty. |
| `MenuIds.StringSortFreshForEqualWidth` | app/api/menu/add-appetizers/route.ts:41-46 | When every id is a digit string of one common width, the string-sorted next id is fresh. |
| `MenuIds.NumberedIdsSortLastAtNine` | app/api/menu/add-appetizers/route.ts:41 | Among the ids "1" to "n", with n from 9 to 89, "9" sorts last. |
| `MenuIds.NumberedMenuNextIdTaken` | app/api/menu/add-appetizers/route.ts:41-50 | In a menu numbered "1" to "n", with n from 10 to 89, the string-sorted next id is "10", which is already taken. |
| `MenuIds.SeededMenuNextIdTaken` | lib/data.ts:442-445 | Right after seeding, the string-sorted next id is "10", which is already taken. |
| `Appetizers.AddMissing` | app/api/menu/add-appetizers/route.ts:37-54 | Items are only appended, one per added name, and ids stay unique. Unless a save is refused, every entry's name is present afterwards. With numeric ids and valid entries, no save is refused. Under either id rule, with entries of distinct names, a run without a refused save adds exactly the names that were absent, in entry order. |
| `Appetizers.AddAppetizersWith` | app/api/menu/add-appetizers/route.ts:32-74 | A refused save gives a 500 and keeps what was added before it. Otherwise the response lists the added names, and the message is "All items already exist" exactly when there are none. |
| `Appetizers.AddAppetizersAsWritten` | app/api/menu/add-appetizers/route.ts:32-74 | The endpoint with its string-sorted id never breaks the unique id index. When it answers 200, the names it reports are exactly the endpoint's entries that were absent, in entry order. |
| `Appetizers.AddAppetizers` | app/api/menu/add-appetizers/route.ts:37-66 | With the numeric next id, the endpoint never fails. It adds exactly the entries whose names are absent, in entry order. Afterwards every entry's name is present and ids are unique. |
| `Appetizers.AddedAreAbsent` | app/api/menu/add-appetizers/route.ts:37-54 | Under either id rule, with entries of distinct names, the names added are a prefix of the absent names in entry order: all of them unless a save was refused, and otherwise the ones before the refusal. |
| `Appetizers.AllPresentAddsNothing` | app/api/menu/add-appetizers/route.ts:38-39 | When every entry's name is present, the loop adds nothing. |
| `Appetizers.AddAppetizersTwice` | app/api/menu/add-appetizers/route.ts:56-66 | A second call adds nothing and answers "All items already exist" with an empty list. |
| `Appetizers.NumberedMenuAddFails` | app/api/menu/add-appetizers/route.ts:41-50 | In a menu numbered "1" to "n", with n from 10 to 89, the first absent entry is refused under the string-sorted id. |
| `Appetizers.SeededMenuAddFails` | app/api/menu/add-appetizers/route.ts:37-73 | Right after the menu is seeded, the endpoint as written answers 500 and adds nothing. |
| `Appetizers.NineItemMenuAddFails` | app/api/menu/add-appetizers/route.ts:37-73 | In a menu numbered "1" to "9", the first id picked is fresh. The endpoint's own addition then makes the second pick collide, so the call answers 500 after adding one item. |
| `Appetizers.RemoveOldItems` | scripts/update-appetizers.ts:43-61 | Exactly the items carrying an old name are deleted. The count is the number of items deleted, and ids stay unique. |
| `Appetizers.FirstNamed` | scripts/update-appetizers.ts:96-97 | The lookup by name finds the first item with that name, or reports that there is none. |
| `Appetizers.Overwrite` | scripts/update-appetizers.ts:96-106 | The overwrite replaces description, price, category and availability, and tags when the entry has them. It keeps id, name, image and allergens, and keeps the tags when the entry has none. |
| `Appetizers.UpdateFirstNamed` | scripts/update-appetizers.ts:96-106 | Only the first item with the entry's name is overwritten; every other item is left alone. |
| `Appetizers.UpsertOne` | scripts/update-appetizers.ts:67-112 | A present name gets its first item overwritten and every other item is unchanged. An absent name is appended as a new item built from the entry under the numeric next id, and the items before it are unchanged. Either way its name is present, every earlier name is kept, no other name appears, and ids stay unique. |
| `Appetizers.OverwriteNamed` | scripts/update-appetizers.ts:93-108 | The update branch overwrites the first item with the entry's name and leaves every name and id where it was. |
| `Appetizers.CreateNamed` | scripts/update-appetizers.ts:69-87 | The create branch appends the item built from the entry under the numeric next id, keeping ids unique. |
| `Appetizers.Upsert` | scripts/update-appetizers.ts:67-113 | Each entry is either added or overwritten. With entries of distinct names, the names reported added are exactly those absent from the starting store, and those reported updated are exactly those present, both in entry order. Afterwards every entry's name is present and every earlier name is kept. |
| `Appetizers.UpdateAppetizers` | scripts/update-appetizers.ts:37-133 | After the script, every new name is present and no old name is. The entries reported added are those missing after the deletions, and those reported updated are those still there. The removed count is the number of items deleted, and ids stay unique. |
| `Appetizers.RemoveThenUpsert` | scripts/update-appetizers.ts:43-113 | Deleting names and then upserting entries that carry none of them leaves none of those names and keeps ids unique. |
| `Appetizers.UpdateAppetizersTwice` | scripts/update-appetizers.ts:37-133 | A second run right after the first deletes nothing and adds nothing; it only overwrites its entries again. |
| `Appetizers.SecondRunIsQuiet` | scripts/update-appetizers.ts:43-113 | A store with every entry's name and no old name gets nothing deleted and nothing added. |
| `Appetizers.RemoveNothing` | scripts/update-appetizers.ts:54-60 | Deleting names no item carries deletes nothing. |

## Left out

- Database plumbing (connections, `lean`, `_id` fallbacks for ids, the sort in
  `getReservations`) is not modelled. The store is an in-memory sequence and
  lookups take the first matching record.
- The `GET /api/reservations` handler is not modelled; it only lists the store.
- The system clock and `Date` parsing are not modelled.
- Calendar.IsBeforeToday: it treats a `YYYY-MM-DD` date with month 01–12 and
  day 01–31 as a whole day, and any other string as an invalid date, which is
  never in the past. Three things are not modelled:
  - the shift between UTC midnight and local midnight in `new Date(date)`;
  - dates JavaScript would accept in other formats;
  - the roll-over of a day past the month's end into the next month. For
    example, "2024-02-30" is read as 1 March 2024, so with today "2024-03-01"
    the code accepts the request where the model answers 400.
- MenuIds.NextNumericId: JavaScript numbers are doubles, and above 2^53
  (`Number.MAX_SAFE_INTEGER` + 1) `parseInt`, `+ 1` and `toString` round.
  - The model reads and adds ids as unbounded integers, so the allocators are
    modelled faithfully only for ids below 2^53.
  - For example, with the id "9007199254740992" the code computes the same
    id again and the create fails. The model gives "9007199254740993".
  - The freshness of the ids that `Appetizers.UpdateAppetizers` and
    `Appetizers.AddAppetizers` create rests on this bound.
- MenuIds.StringSortFreshForEqualWidth: for the same reason, it holds in
  JavaScript only for ids below 2^53.
- ReservationsRoute.GuestsField: a JSON number `guests` is an integer here.
  - A fractional count (2.5, which `parseInt` reads as 2) is not represented.
  - `parseInt(guests, 10)` reads `String(guests)`, and from 10^21 up that
    string is in exponent form. For example, 1e21 becomes "1e+21", which reads
    as 1, so the code books one guest. The model reads the number itself, so
    it asks availability for 10^21 guests and refuses. Numeric guest counts
    of magnitude 10^21 or more are therefore not modelled faithfully.
  - Nor are values of other JSON types for `name`, `phone`, `date` and `time`;
    each of those is a string, with "" for a missing one.
  - A `guests` value that is neither a string nor a number (a boolean, an
    object, an array) is read as its `String()` form, which keeps both its
    truthiness and what `parseInt` reads. The exception is the empty array:
    `[]` is truthy, but its `String()` form "" is not.
- `Calendar.ClockMinutes` reads only time parts made of digits (after
  trimming). Signs, decimals and exponents that `Number` would accept read as
  NaN here.
- `checkAvailabilityForDate`, `getAvailableSeatsForDate` and
  `deleteOldCheckedInAndRejectedReservations` are not part of this model. The
  first two are function parameters of the handlers, and the cleanup route is
  left out with them.
- SMS and e-mail delivery and the locale formatting of dates in messages are
  not modelled. The SMS attempt is a `SmsOutcome` parameter: sent, not sent,
  or threw with a message.
- Admin authentication, all React components, i18n routing, and the seed and
  menu-clear routes are not modelled.
- Concurrency is not modelled, including the race between the capacity check
  and the save.
- Prices are integer cents, so floating-point prices are not modelled.
- `Date.now()` ids are a parameter. A clash is a refused save, as the unique
  index would make it.
- Menu-item name and description translations are not modelled.
- Mongoose strict mode would drop the undeclared `checkedIn` and `checkedInAt`
  fields. They are modelled as fields, as the ledger code uses them.
- A field set to `undefined` in an update is modelled as cleared, which is what
  the ledger code intends. The script's update of an entry without tags leaves
  the tags alone.
- The console output of the update script and its process exit code are not
  modelled.
- Ledger.CancelExpiredReservations: it updates records in place by position,
  while the code writes by `id`. The two agree when ids are unique, which the
  schema guarantees.
- Appetizers.Upsert: it requires every entry to pass the schema. The script's
  own entries do (`Appetizers.ScriptAppetizersValid`). The script would skip an
  invalid entry after logging it; that path is not modelled.
- Appetizers.Overwrite: it requires the entry to pass the schema, for the same
  reason as `Appetizers.Upsert`.
- A record carries a rejection reason exactly when it is rejected. The PATCH
  handler's checks (app/api/reservations/route.ts:125-130) keep this true; the
  ledger's status update alone does not.
  `Ledger.RejectWithoutReasonLeavesNoReason` shows the status update breaking
  it, and `ReservationsRoute.HandlersPreserveReasons` shows the handlers
  keeping it.

## Findings

| source | as written | input that shows it | evidently intended | confidence | as-written member | corrected member |
|---|---|---|---|---|---|---|
| app/api/menu/add-appetizers/route.ts:41-46 | The next id is `parseInt` of the id that sorts last as a string, plus one. Under the string sort "9" comes after "10" to "22". | Seed the empty menu (ids "1" to "22", lib/data.ts:442-445), then call the endpoint. It picks "10", which item 10 already holds. The unique index refuses the save, and the call answers 500 having added nothing. | The next id is one more than the largest numeric id, as in scripts/update-appetizers.ts:71-82. | not executed | `Appetizers.SeededMenuAddFails` | `Appetizers.AddAppetizers` |
| app/api/menu/add-appetizers/route.ts:41-50 | The string-sorted next id is fresh only while every id has the same width, and the endpoint's own additions break that. | A menu of 9 items with ids "1" to "9" that lacks the entries. The first entry gets the fresh id "10". The second is given "10" again, so the call answers 500 after adding one item. | Each added item gets a fresh id. | not executed | `Appetizers.NineItemMenuAddFails` | `MenuIds.NextNumericId` |

=== FILE: appetizers.dfy ===
/** The two procedures that maintain the appetizer section of the menu: the
    add-appetizers endpoint (app/api/menu/add-appetizers/route.ts), which adds
    the entries whose name is missing, and the maintenance script
    (scripts/update-appetizers.ts), which deletes items under old names and then
    adds or overwrites its entries by name. */
module Appetizers {
  import opened Wrappers
  import opened Text
  import opened Menu
  import opened MenuIds

  /** The endpoint's entries. */
  const RouteAppetizers: seq<MenuDraft> := [
    MenuDraft("Vegetarian Sambusa", "Parcel filled with mixed vegetables",
              300, "appetizer", None, None, Some(["vegetarian"]), Some(true)),
    MenuDraft("Meat Sambusa", "Parcel filled with minced meat and parsley, slightly spicy",
              300, "appetizer", None, None, Some(["spicy"]), Some(true)),
    MenuDraft("Catagna", "Injera rolls (typical Eritrean bread) with ghee and chili pepper. ***Spicy",
              200, "appetizer", None, None, Some(["spicy"]), Some(true))]

  /** The script's entries. */
  const ScriptAppetizers: seq<MenuDraft> := [
    MenuDraft("Vegetarian Samosa", "(Price per person) Ingredients: Parcel filled with mixed vegetables",
              300, "appetizer", None, None, Some(["vegetarian"]), Some(true)),
    MenuDraft("Meat Samosal", "(Price per Person) Ingredients: Parcel filled with minced meat and parsley, slightly spicy",
              300, "appetizer", None, None, Some(["spicy"]), Some(true)),
    MenuDraft("Catagna", "(Price per person) Injera rolls (typical Eritrean bread) with ghee and chili pepper. ***Spicy",
              200, "appetizer", None, None, Some(["spicy"]), Some(true))]

  /** The names the script deletes before it adds its entries. */
  const OldItemNames: seq<string> :=
    ["Vegetarian Sambusa", "Meat Sambusa", "Bruschetta Trio", "Caesar Salad", "Shrimp Cocktail"]

  predicate AllValid(drafts: seq<MenuDraft>) {
    forall i | 0 <= i < |drafts| :: ValidDraft(drafts[i])
  }

  predicate DistinctNames(drafts: seq<MenuDraft>) {
    forall i, j | 0 <= i < j < |drafts| :: drafts[i].name != drafts[j].name
  }

  predicate AllNamesPresent(store: seq<MenuItem>, drafts: seq<MenuDraft>) {
    forall i | 0 <= i < |drafts| :: HasName(store, drafts[i].name)
  }

  /** The reference for what gets added: the names of the entries that no item
      of the store carries, in entry order. */
  function AbsentNames(store: seq<MenuItem>, drafts: seq<MenuDraft>): seq<string>
    decreases |drafts|
  {
    if |drafts| == 0 then []
    else (if HasName(store, drafts[0].name) then [] else [drafts[0].name]) + AbsentNames(store, drafts[1..])
  }

  /** The names of the entries that some item of the store carries, in entry
      order. */
  function PresentNames(store: seq<MenuItem>, drafts: seq<MenuDraft>): seq<string>
    decreases |drafts|
  {
    if |drafts| == 0 then []
    else (if HasName(store, drafts[0].name) then [drafts[0].name] else []) + PresentNames(store, drafts[1..])
  }

  /** No entry after the first shares the first one's name. */
  lemma RestNamedOtherwise(drafts: seq<MenuDraft>)
    requires |drafts| > 0 && DistinctNames(drafts)
    ensures DistinctNames(drafts[1..])
    ensures forall i | 0 <= i < |drafts[1..]| :: drafts[1..][i].name != drafts[0].name
  {
    assert forall i | 0 <= i < |drafts[1..]| :: drafts[1..][i] == drafts[i + 1];
  }

  /** A store `b` that carries every name of `a` and otherwise only `name`
      leaves absent and present the same entries as `a`, among entries not
      called `name`. */
  lemma OtherNamesFrame(a: seq<MenuItem>, b: seq<MenuItem>, name: string, drafts: seq<MenuDraft>)
    requires forall i | 0 <= i < |a| :: HasName(b, a[i].name)
    requires forall i | 0 <= i < |b| :: b[i].name == name || HasName(a, b[i].name)
    requires forall i | 0 <= i < |drafts| :: drafts[i].name != name
    ensures AbsentNames(a, drafts) == AbsentNames(b, drafts)
    ensures PresentNames(a, drafts) == PresentNames(b, drafts)
  {
    forall i | 0 <= i < |drafts| ensures HasName(a, drafts[i].name) == HasName(b, drafts[i].name) {
      if HasName(a, drafts[i].name) {
        var k :| 0 <= k < |a| && a[k].name == drafts[i].name;
      }
      if HasName(b, drafts[i].name) {
        var k :| 0 <= k < |b| && b[k].name == drafts[i].name;
      }
    }
    AbsentNamesFrame(a, b, drafts);
  }

  // ------------------------------------------------------ the add endpoint

  /** Which rule picks the id of a new item. */
  datatype Allocator = NumericMax | StringSortedMax

  function NextId(store: seq<MenuItem>, alloc: Allocator): string {
    match alloc
    case NumericMax => NextNumericId(store)
    case StringSortedMax => NextIdByStringSort(store)
  }

  /** The endpoint's loop: the names it added, the store it leaves, and whether
      a save threw (which ends the loop). */
  datatype AddRun = AddRun(added: seq<string>, store: seq<MenuItem>, failed: bool)

  /** For each entry in order: skip it when its name is present, otherwise
      create it under the allocator's next id; a refused save stops the loop and
      keeps what was added before it.  Items are only ever appended, one per
      added name, and with entries of distinct names a loop that ends without a
      refused save has added exactly the absent names, in entry order. */
  function AddMissing(store: seq<MenuItem>, drafts: seq<MenuDraft>, alloc: Allocator): (r: AddRun)
    ensures |r.store| == |store| + |r.added| && r.store[..|store|] == store
    ensures UniqueMenuIds(store) ==> UniqueMenuIds(r.store)
    ensures !r.failed ==> AllNamesPresent(r.store, drafts)
    ensures alloc == NumericMax && AllValid(drafts) ==> !r.failed
    ensures DistinctNames(drafts) && !r.failed ==> r.added == AbsentNames(store, drafts)
    decreases |drafts|
  {
    if |drafts| == 0 then AddRun([], store, false)
    else if HasName(store, drafts[0].name) then
      var rest := AddMissing(store, drafts[1..], alloc);
      SkippedStep(store, drafts, alloc, rest);
      rest
    else match CreateMenuItem(store, drafts[0], NextId(store, alloc))
      case Failure(_) =>
        RefusedStep(store, drafts, alloc);
        AddRun([], store, true)
      case Success(s) =>
        var rest := AddMissing(s, drafts[1..], alloc);
        assert s[|store|].name == drafts[0].name;
        CreatedStep(store, s, drafts, alloc, rest);
        AddRun([drafts[0].name] + rest.added, rest.store, rest.failed)
  }

  /** What a run of the loop from `store` over `drafts` guarantees. */
  predicate RunFacts(store: seq<MenuItem>, drafts: seq<MenuDraft>, alloc: Allocator, r: AddRun) {
    && |r.store| == |store| + |r.added| && r.store[..|store|] == store
    && (UniqueMenuIds(store) ==> UniqueMenuIds(r.store))
    && (!r.failed ==> AllNamesPresent(r.store, drafts))
    && (alloc == NumericMax && AllValid(drafts) ==> !r.failed)
    && (DistinctNames(drafts) && !r.failed ==> r.added == AbsentNames(store, drafts))
  }

  /** A present name is skipped: the rest of the run is the whole run. */
  lemma SkippedStep(store: seq<MenuItem>, drafts: seq<MenuDraft>, alloc: Allocator, rest: AddRun)
    requires |drafts| > 0 && HasName(store, drafts[0].name)
    requires RunFacts(store, drafts[1..], alloc, rest)
    ensures RunFacts(store, drafts, alloc, rest)
  {
    if DistinctNames(drafts) { RestNamedOtherwise(drafts); }
    assert AbsentNames(store, drafts) == AbsentNames(store, drafts[1..]);
    if !rest.failed {
      AppendKeepsNames(store, rest.store[|store|..], drafts[0].name);
      assert rest.store == store + rest.store[|store|..];
      AllNamesPresentStep(rest.store, drafts);
    }
    assert AllValid(drafts) ==> AllValid(drafts[1..]);
  }

  /** A refused save ends the run; with numeric ids and valid entries no save
      is refused. */
  lemma RefusedStep(store: seq<MenuItem>, drafts: seq<MenuDraft>, alloc: Allocator)
    requires |drafts| > 0 && CreateMenuItem(store, drafts[0], NextId(store, alloc)).Failure?
    ensures RunFacts(store, drafts, alloc, AddRun([], store, true))
  {
    assert AllValid(drafts) ==> ValidDraft(drafts[0]);
    assert ParsedId(NextNumericId(store)).Some?;
  }

  /** An absent name is created, and the rest of the run follows. */
  lemma CreatedStep(store: seq<MenuItem>, s: seq<MenuItem>, drafts: seq<MenuDraft>, alloc: Allocator, rest: AddRun)
    requires |drafts| > 0 && !HasName(store, drafts[0].name)
    requires |s| == |store| + 1 && s[..|store|] == store && s[|store|].name == drafts[0].name
    requires UniqueMenuIds(store) ==> UniqueMenuIds(s)
    requires RunFacts(s, drafts[1..], alloc, rest)
    ensures RunFacts(store, drafts, alloc, AddRun([drafts[0].name] + rest.added, rest.store, rest.failed))
  {
    CreatedPrefix(store, s, rest.store);
    if !rest.failed { CreatedNamesPresent(store, s, drafts, rest.store); }
    if DistinctNames(drafts) { CreatedAbsent(store, s, drafts); }
    assert AllValid(drafts) ==> AllValid(drafts[1..]);
  }

  lemma CreatedPrefix(store: seq<MenuItem>, s: seq<MenuItem>, after: seq<MenuItem>)
    requires |s| == |store| + 1 && s[..|store|] == store
    requires |after| >= |s| && after[..|s|] == s
    ensures after[..|store|] == store
  {
    assert after[..|s|][..|store|] == after[..|store|];
  }

  lemma CreatedNamesPresent(store: seq<MenuItem>, s: seq<MenuItem>, drafts: seq<MenuDraft>, after: seq<MenuItem>)
    requires |drafts| > 0 && |s| == |store| + 1 && s[|store|].name == drafts[0].name
    requires |after| >= |s| && after[..|s|] == s
    requires AllNamesPresent(after, drafts[1..])
    ensures AllNamesPresent(after, drafts)
  {
    assert after[|store|] == s[|store|];
    AllNamesPresentStep(after, drafts);
  }

  lemma CreatedAbsent(store: seq<MenuItem>, s: seq<MenuItem>, drafts: seq<MenuDraft>)
    requires |drafts| > 0 && DistinctNames(drafts) && !HasName(store, drafts[0].name)
    requires |s| == |store| + 1 && s[..|store|] == store && s[|store|].name == drafts[0].name
    ensures DistinctNames(drafts[1..])
    ensures AbsentNames(store, drafts) == [drafts[0].name] + AbsentNames(s, drafts[1..])
  {
    RestNamedOtherwise(drafts);
    AppendedFrame(store, s, drafts[0].name, drafts[1..]);
  }

  lemma AppendKeepsNames(store: seq<MenuItem>, more: seq<MenuItem>, name: string)
    requires HasName(store, name)
    ensures HasName(store + more, name)
  {
    var i :| 0 <= i < |store| && store[i].name == name;
    assert (store + more)[i] == store[i];
  }

  lemma AllNamesPresentStep(store: seq<MenuItem>, drafts: seq<MenuDraft>)
    requires |drafts| > 0 && HasName(store, drafts[0].name)
    ensures AllNamesPresent(store, drafts[1..]) ==> AllNamesPresent(store, drafts)
  {
    assert forall i | 1 <= i < |drafts| :: drafts[i] == drafts[1..][i - 1];
  }

  datatype AddResponse =
    | AddedItems(message: string, added: seq<string>)
    | AddFailed(error: string)

  datatype AddOutcome = AddOutcome(response: AddResponse, store: seq<MenuItem>)

  /** POST /api/menu/add-appetizers with a given id rule: a thrown save is a
      500 that keeps the items added before it; otherwise the added names, or
      "All items already exist" when there are none. */
  function AddAppetizersWith(store: seq<MenuItem>, alloc: Allocator): (o: AddOutcome)
    ensures o.response.AddFailed? <==> AddMissing(store, RouteAppetizers, alloc).failed
    ensures o.store == AddMissing(store, RouteAppetizers, alloc).store
    ensures o.response.AddedItems? ==>
      && o.response.added == AddMissing(store, RouteAppetizers, alloc).added
      && (o.response.added == [] <==> o.response.message == "All items already exist")
  {
    var run := AddMissing(store, RouteAppetizers, alloc);
    if run.failed then AddOutcome(AddFailed("Failed to add menu items"), run.store)
    else if |run.added| > 0 then
      AddOutcome(AddedItems("Successfully added " + NatToString(|run.added|) + " menu item(s)", run.added), run.store)
    else AddOutcome(AddedItems("All items already exist", []), run.store)
  }

  /** The endpoint as written: the next id comes from the string-sorted
      maximum.  When it answers 200 it has added exactly the absent names. */
  function AddAppetizersAsWritten(store: seq<MenuItem>): (o: AddOutcome)
    ensures UniqueMenuIds(store) ==> UniqueMenuIds(o.store)
    ensures o.response.AddedItems? ==> o.response.added == AbsentNames(store, RouteAppetizers)
  {
    RouteAppetizersValid();
    AddAppetizersWith(store, StringSortedMax)
  }

  /** The endpoint with the script's numeric maximum: it never fails, it adds
      exactly the entries whose name is absent, in entry order, and afterwards
      every entry's name is present. */
  function AddAppetizers(store: seq<MenuItem>): (o: AddOutcome)
    ensures o.response.AddedItems?
    ensures o.response.added == AbsentNames(store, RouteAppetizers)
    ensures AllNamesPresent(o.store, RouteAppetizers)
    ensures UniqueMenuIds(store) ==> UniqueMenuIds(o.store)
  {
    RouteAppetizersValid();
    AddAppetizersWith(store, NumericMax)
  }

  lemma RouteAppetizersValid()
    ensures AllValid(RouteAppetizers) && DistinctNames(RouteAppetizers)
  {
    NamesDistinctByFirstLetter(RouteAppetizers);
  }

  /** Entries whose names start with pairwise different letters have distinct
      names. */
  lemma NamesDistinctByFirstLetter(drafts: seq<MenuDraft>)
    requires forall i | 0 <= i < |drafts| :: |drafts[i].name| > 0
    requires forall i, j | 0 <= i < j < |drafts| :: drafts[i].name[0] != drafts[j].name[0]
    ensures DistinctNames(drafts)
  {
  }

  /** With entries of distinct names, under either id rule, the names the
      loop adds are the first of the absent names in entry order: all of them
      unless a save is refused. */
  lemma {:induction false} AddedAreAbsent(store: seq<MenuItem>, drafts: seq<MenuDraft>, alloc: Allocator)
    requires DistinctNames(drafts)
    ensures AddMissing(store, drafts, alloc).added <= AbsentNames(store, drafts)
    ensures !AddMissing(store, drafts, alloc).failed ==> AddMissing(store, drafts, alloc).added == AbsentNames(store, drafts)
    decreases |drafts|
  {
    if |drafts| > 0 {
      var d := drafts[0];
      RestNamedOtherwise(drafts);
      if HasName(store, d.name) {
        AddedAreAbsent(store, drafts[1..], alloc);
        assert AbsentNames(store, drafts) == AbsentNames(store, drafts[1..]);
      } else if CreateMenuItem(store, d, NextId(store, alloc)).Success? {
        var s := CreateMenuItem(store, d, NextId(store, alloc)).value;
        var rest := AddMissing(s, drafts[1..], alloc);
        AddedAreAbsent(s, drafts[1..], alloc);
        AppendedFrame(store, s, d.name, drafts[1..]);
        assert AddMissing(store, drafts, alloc).added == [d.name] + rest.added;
        assert AbsentNames(store, drafts) == [d.name] + AbsentNames(s, drafts[1..]);
      }
    }
  }

  /** Appending one item named `name` changes nothing for the other names. */
  lemma AppendedFrame(store: seq<MenuItem>, s: seq<MenuItem>, name: string, drafts: seq<MenuDraft>)
    requires |s| == |store| + 1 && s[..|store|] == store && s[|store|].name == name
    requires forall i | 0 <= i < |drafts| :: drafts[i].name != name
    ensures AbsentNames(s, drafts) == AbsentNames(store, drafts)
    ensures PresentNames(s, drafts) == PresentNames(store, drafts)
  {
    forall i | 0 <= i < |store| ensures HasName(s, store[i].name) {
      assert s[i] == store[i];
    }
    forall i | 0 <= i < |s| ensures s[i].name == name || HasName(store, s[i].name) {
      if i < |store| { assert s[i] == store[i]; }
    }
    OtherNamesFrame(store, s, name, drafts);
  }

  /** Two stores that agree on which entry names they carry leave the same
      names absent. */
  lemma {:induction false} AbsentNamesFrame(a: seq<MenuItem>, b: seq<MenuItem>, drafts: seq<MenuDraft>)
    requires forall i | 0 <= i < |drafts| :: HasName(a, drafts[i].name) == HasName(b, drafts[i].name)
    ensures AbsentNames(a, drafts) == AbsentNames(b, drafts)
    ensures PresentNames(a, drafts) == PresentNames(b, drafts)
    decreases |drafts|
  {
    if |drafts| > 0 {
      assert forall i | 1 <= i < |drafts| :: drafts[i] == drafts[1..][i - 1];
      AbsentNamesFrame(a, b, drafts[1..]);
    }
  }

  /** When every entry's name is present the loop adds nothing. */
  lemma {:induction false} AllPresentAddsNothing(store: seq<MenuItem>, drafts: seq<MenuDraft>, alloc: Allocator)
    requires AllNamesPresent(store, drafts)
    ensures AddMissing(store, drafts, alloc) == AddRun([], store, false)
    decreases |drafts|
  {
    if |drafts| > 0 {
      assert forall i | 1 <= i < |drafts| :: drafts[i] == drafts[1..][i - 1];
      AllPresentAddsNothing(store, drafts[1..], alloc);
    }
  }

  /** Calling the endpoint a second time adds nothing and says so. */
  lemma AddAppetizersTwice(store: seq<MenuItem>)
    ensures
      var first := AddAppetizers(store);
      AddAppetizers(first.store) == AddOutcome(AddedItems("All items already exist", []), first.store)
  {
    var first := AddAppetizers(store);
    AllPresentAddsNothing(first.store, RouteAppetizers, NumericMax);
  }

  /** In a menu numbered "1" to "n" with 10 <= n < 90, a loop whose first
      entry is absent fails at once under the string-sorted id: the id it picks,
      "10", is taken. */
  lemma NumberedMenuAddFails(store: seq<MenuItem>, drafts: seq<MenuDraft>)
    requires 10 <= |store| < 90
    requires forall i | 0 <= i < |store| :: store[i].id == SeedId(i)
    requires |drafts| > 0 && !HasName(store, drafts[0].name)
    ensures AddMissing(store, drafts, StringSortedMax) == AddRun([], store, true)
  {
    NumberedMenuNextIdTaken(store);
  }

  /** None of the endpoint's entries is in the seed catalogue. */
  lemma SeedLacksRouteNames()
    ensures forall i | 0 <= i < |InitialMenuItems| :: InitialMenuItems[i].name != RouteAppetizers[0].name
  {
  }

  /** Right after the menu is seeded, the endpoint as written fails with a 500
      and adds nothing. */
  lemma SeededMenuAddFails()
    ensures AddAppetizersAsWritten(SeedMenuItems([])) ==
      AddOutcome(AddFailed("Failed to add menu items"), SeedMenuItems([]))
  {
    var store := SeedMenuItems([]);
    SeedLacksRouteNames();
    assert !HasName(store, RouteAppetizers[0].name) by {
      forall i | 0 <= i < |store| ensures store[i].name != RouteAppetizers[0].name {
        assert store[i].name == InitialMenuItems[i].name;
      }
    }
    NumberedMenuAddFails(store, RouteAppetizers);
  }

  /** The endpoint's own additions break the equal-width condition under which
      its id is fresh (`MenuIds.StringSortFreshForEqualWidth`): in a menu
      numbered "1" to "9" without the entries' names, the first entry gets the
      fresh id "10", but the second is again given "10", so the call fails with
      a 500 after adding one item. */
  lemma NineItemMenuAddFails(store: seq<MenuItem>)
    requires |store| == 9
    requires forall i | 0 <= i < |store| :: store[i].id == SeedId(i)
    requires forall i | 0 <= i < |store| :: store[i].name != RouteAppetizers[0].name && store[i].name != RouteAppetizers[1].name
    ensures FreshMenuId(store, NextIdByStringSort(store))
    ensures AddAppetizersAsWritten(store).response == AddFailed("Failed to add menu items")
    ensures |AddAppetizersAsWritten(store).store| == 10
  {
    NineNumberedNextId(store);
    RouteAppetizersValid();
    SecondAdditionFails(store, RouteAppetizers);
  }

  /** In a menu numbered "1" to "9" the string-sorted next id is "10", and it is
      fresh. */
  lemma NineNumberedNextId(store: seq<MenuItem>)
    requires |store| == 9
    requires forall i | 0 <= i < |store| :: store[i].id == SeedId(i)
    ensures NextIdByStringSort(store) == "10" && FreshMenuId(store, "10")
  {
    forall i | 0 <= i < |store| ensures AllDigits(store[i].id) && |store[i].id| == 1 {
      assert NatToString(i + 1) == [DigitChar(i + 1)];
    }
    StringSortFreshForEqualWidth(store, 1);
    NumberedIdsSortLastAtNine(Ids(store));
    NineThenTen();
  }

  /** The loop over a menu numbered "1" to "9" lacking the first two entries'
      names: the first is added under "10", the second is refused. */
  lemma SecondAdditionFails(store: seq<MenuItem>, drafts: seq<MenuDraft>)
    requires |store| == 9
    requires forall i | 0 <= i < |store| :: store[i].id == SeedId(i)
    requires NextIdByStringSort(store) == "10" && FreshMenuId(store, "10")
    requires |drafts| >= 2 && ValidDraft(drafts[0]) && drafts[0].name != drafts[1].name
    requires forall i | 0 <= i < |store| :: store[i].name != drafts[0].name && store[i].name != drafts[1].name
    ensures AddMissing(store, drafts, StringSortedMax).failed
    ensures |AddMissing(store, drafts, StringSortedMax).store| == 10
  {
    var item := BuildMenuItem(drafts[0], "10").value;
    var rest := AddMissing(store + [item], drafts[1..], StringSortedMax);
    assert AddMissing(store, drafts, StringSortedMax) == AddRun([drafts[0].name] + rest.added, rest.store, rest.failed) by {
      assert !HasName(store, drafts[0].name);
      assert NextId(store, StringSortedMax) == "10";
      AddMissingCreates(store, drafts, StringSortedMax);
    }
    assert rest == AddRun([], store + [item], true) by {
      TenItemsRefuseNext(store, item, drafts[1..]);
    }
  }

  /** Once a tenth item holds "10", the next absent entry is refused. */
  lemma TenItemsRefuseNext(store: seq<MenuItem>, item: MenuItem, drafts: seq<MenuDraft>)
    requires |store| == 9 && item.id == "10"
    requires forall i | 0 <= i < |store| :: store[i].id == SeedId(i)
    requires |drafts| > 0 && !HasName(store, drafts[0].name) && item.name != drafts[0].name
    ensures AddMissing(store + [item], drafts, StringSortedMax) == AddRun([], store + [item], true)
  {
    NumberedAfterAppend(store, item);
    NameAbsentAfterAppend(store, item, drafts[0].name);
    NumberedMenuAddFails(store + [item], drafts);
  }

  /** One step of the loop on an absent name whose next id is free: the item
      is appended and the loop goes on. */
  lemma AddMissingCreates(store: seq<MenuItem>, drafts: seq<MenuDraft>, alloc: Allocator)
    requires |drafts| > 0 && !HasName(store, drafts[0].name) && ValidDraft(drafts[0])
    requires NextId(store, alloc) != "" && FreshMenuId(store, NextId(store, alloc))
    ensures
      var rest := AddMissing(store + [BuildMenuItem(drafts[0], NextId(store, alloc)).value], drafts[1..], alloc);
      AddMissing(store, drafts, alloc) == AddRun([drafts[0].name] + rest.added, rest.store, rest.failed)
  {
  }

  lemma NumberedAfterAppend(store: seq<MenuItem>, item: MenuItem)
    requires |store| == 9 && item.id == "10"
    requires forall i | 0 <= i < |store| :: store[i].id == SeedId(i)
    ensures forall i | 0 <= i < |store| + 1 :: (store + [item])[i].id == SeedId(i)
  {
    NineThenTen();
    assert SeedId(9) == "10";
  }

  lemma NameAbsentAfterAppend(store: seq<MenuItem>, item: MenuItem, name: string)
    requires !HasName(store, name) && item.name != name
    ensures !HasName(store + [item], name)
  {
    assert forall i | 0 <= i < |store| :: (store + [item])[i] == store[i];
  }

  // ------------------------------------------------------------ the script

  /** `deleteMany({ name })` for each old name in turn; the count is the number
      of items deleted in total. */
  function RemoveOldItems(store: seq<MenuItem>, names: seq<string>): (r: (seq<MenuItem>, nat))
    ensures forall x :: x in r.0 <==> x in store && x.name !in names
    ensures r.1 == |store| - |r.0|
    ensures UniqueMenuIds(store) ==> UniqueMenuIds(r.0)
    decreases |names|
  {
    if |names| == 0 then (store, 0)
    else
      var kept := Filter(store, (x: MenuItem) => x.name != names[0]);
      FilterKeepsUniqueIds(store, (x: MenuItem) => x.name != names[0]);
      var rest := RemoveOldItems(kept, names[1..]);
      (rest.0, |store| - |kept| + rest.1)
  }

  lemma {:induction false} FilterKeepsUniqueIds(store: seq<MenuItem>, keep: MenuItem -> bool)
    ensures UniqueMenuIds(store) ==> UniqueMenuIds(Filter(store, keep))
    decreases |store|
  {
    if |store| > 0 && UniqueMenuIds(store) {
      assert UniqueMenuIds(store[1..]);
      FilterKeepsUniqueIds(store[1..], keep);
      var tail := Filter(store[1..], keep);
      forall x | x in tail ensures x.id != store[0].id {
        var k :| 0 <= k < |store[1..]| && store[1..][k] == x;
        assert store[k + 1] == x;
      }
    }
  }

  /** The index of the first item named `name`. */
  function FirstNamed(store: seq<MenuItem>, name: string): (r: Option<nat>)
    ensures r.None? <==> !HasName(store, name)
    ensures r.Some? ==> r.value < |store| && store[r.value].name == name
    ensures r.Some? ==> forall i | 0 <= i < r.value :: store[i].name != name
    decreases |store|
  {
    if |store| == 0 then None
    else if store[0].name == name then Some(0)
    else match FirstNamed(store[1..], name)
      case None =>
        assert forall i | 1 <= i < |store| :: store[i] == store[1..][i - 1];
        None
      case Some(k) => Some(k + 1)
  }

  /** The fields `findOneAndUpdate` overwrites: description, price, tags,
      category and availability; a field the entry leaves out is not touched. */
  function Overwrite(item: MenuItem, d: MenuDraft): (r: MenuItem)
    requires ValidDraft(d)
    ensures r.id == item.id && r.name == item.name && r.image == item.image && r.allergens == item.allergens
    ensures r.description == d.description && r.price == d.price && CategoryName(r.category) == d.category
    ensures r.available == d.available.GetOr(item.available)
    ensures d.tags.Some? ==> TagNames(r.tags) == d.tags.value
    ensures d.tags.None? ==> r.tags == item.tags
  {
    item.(description := d.description, price := d.price,
          tags := if d.tags.Some? then ParseTags(d.tags.value).value else item.tags,
          category := ParseCategory(d.category).value, available := d.available.GetOr(item.available))
  }

  /** `findOneAndUpdate({ name }, ...)`: the first item with the entry's name is
      overwritten and every other item is left alone. */
  function UpdateFirstNamed(store: seq<MenuItem>, d: MenuDraft): (r: seq<MenuItem>)
    requires ValidDraft(d)
    ensures |r| == |store|
    ensures forall i | 0 <= i < |store| ::
      r[i] == if FirstNamed(store, d.name) == Some(i) then Overwrite(store[i], d) else store[i]
    decreases |store|
  {
    if |store| == 0 then []
    else if store[0].name == d.name then [Overwrite(store[0], d)] + store[1..]
    else [store[0]] + UpdateFirstNamed(store[1..], d)
  }

  /** The script's report: the names added and overwritten, the number of
      items deleted, and the final store. */
  datatype ScriptReport = ScriptReport(added: seq<string>, updated: seq<string>, removedCount: nat, store: seq<MenuItem>)

  /** The store after one entry of the script's second loop: an absent name is
      created under the numeric next id, a present one is overwritten. */
  function UpsertOne(store: seq<MenuItem>, d: MenuDraft): (s: seq<MenuItem>)
    requires ValidDraft(d)
    ensures HasName(s, d.name)
    ensures forall i | 0 <= i < |store| :: HasName(s, store[i].name)
    ensures forall i | 0 <= i < |s| :: s[i].name == d.name || exists j | 0 <= j < |store| :: store[j].name == s[i].name
    ensures UniqueMenuIds(store) ==> UniqueMenuIds(s)
    ensures HasName(store, d.name) ==>
      && |s| == |store|
      && var k := FirstNamed(store, d.name).value;
      && s[k] == Overwrite(store[k], d)
      && forall i | 0 <= i < |store| && i != k :: s[i] == store[i]
    ensures !HasName(store, d.name) ==>
      && |s| == |store| + 1 && s[..|store|] == store
      && s[|store|].id == NextNumericId(store)
      && BuildMenuItem(d, NextNumericId(store)) == Success(s[|store|])
  {
    if HasName(store, d.name) then
      var s := OverwriteNamed(store, d);
      assert s[FirstNamed(store, d.name).value].name == d.name;
      forall i | 0 <= i < |store| ensures HasName(s, store[i].name) && HasName(store, s[i].name) {
        assert s[i].name == store[i].name;
      }
      s
    else
      var s := CreateNamed(store, d);
      forall i | 0 <= i < |store| ensures s[i] == store[i] && HasName(s, store[i].name) {
        assert s[i] == s[..|store|][i];
      }
      s
  }

  /** The update branch of `UpsertOne`: the first item with the entry's name
      is overwritten, so the names and ids stay as they were. */
  function OverwriteNamed(store: seq<MenuItem>, d: MenuDraft): (s: seq<MenuItem>)
    requires ValidDraft(d) && HasName(store, d.name)
    ensures |s| == |store|
    ensures forall i | 0 <= i < |store| :: s[i].name == store[i].name && s[i].id == store[i].id
    ensures UniqueMenuIds(store) ==> UniqueMenuIds(s)
    ensures var k := FirstNamed(store, d.name).value;
      && s[k] == Overwrite(store[k], d)
      && forall i | 0 <= i < |store| && i != k :: s[i] == store[i]
  {
    UpdateFirstNamed(store, d)
  }

  /** The create branch of `UpsertOne`: the entry is appended under the
      numeric next id. */
  function CreateNamed(store: seq<MenuItem>, d: MenuDraft): (s: seq<MenuItem>)
    requires ValidDraft(d) && !HasName(store, d.name)
    ensures |s| == |store| + 1 && s[..|store|] == store
    ensures s[|store|].id == NextNumericId(store) && s[|store|].name == d.name
    ensures BuildMenuItem(d, NextNumericId(store)) == Success(s[|store|])
    ensures UniqueMenuIds(store) ==> UniqueMenuIds(s)
  {
    CreateMenuItem(store, d, NextNumericId(store)).value
  }

  /** The script's second loop over its entries.  A refused save would be
      skipped, but with valid entries and the numeric next id none is refused,
      so every entry is either added or overwritten: with distinct names, the
      added ones are those absent from the starting store and the overwritten
      ones those present in it. */
  function Upsert(store: seq<MenuItem>, drafts: seq<MenuDraft>): (r: ScriptReport)
    requires AllValid(drafts)
    ensures r.removedCount == 0
    ensures |r.added| + |r.updated| == |drafts|
    ensures AllNamesPresent(r.store, drafts)
    ensures forall i | 0 <= i < |store| :: HasName(r.store, store[i].name)
    ensures DistinctNames(drafts) ==>
      r.added == AbsentNames(store, drafts) && r.updated == PresentNames(store, drafts)
    decreases |drafts|
  {
    if |drafts| == 0 then ScriptReport([], [], 0, store)
    else
      var d := drafts[0];
      assert AllValid(drafts[1..]);
      var s := UpsertOne(store, d);
      var rest := Upsert(s, drafts[1..]);
      var k := FirstNamed(s, d.name).value;
      assert HasName(rest.store, s[k].name);
      AllNamesPresentStep(rest.store, drafts);
      assert DistinctNames(drafts) ==>
        && DistinctNames(drafts[1..])
        && AbsentNames(s, drafts[1..]) == AbsentNames(store, drafts[1..])
        && PresentNames(s, drafts[1..]) == PresentNames(store, drafts[1..]) by {
        if DistinctNames(drafts) { UpsertOneKeepsOtherNames(store, drafts); }
      }
      if HasName(store, d.name) then
        assert AbsentNames(store, drafts) == AbsentNames(store, drafts[1..]);
        assert PresentNames(store, drafts) == [d.name] + PresentNames(store, drafts[1..]);
        ScriptReport(rest.added, [d.name] + rest.updated, 0, rest.store)
      else
        assert AbsentNames(store, drafts) == [d.name] + AbsentNames(store, drafts[1..]);
        assert PresentNames(store, drafts) == PresentNames(store, drafts[1..]);
        ScriptReport([d.name] + rest.added, rest.updated, 0, rest.store)
  }

  /** Upserting the first entry leaves the later entries, which carry other
      names, absent or present as they were. */
  lemma UpsertOneKeepsOtherNames(store: seq<MenuItem>, drafts: seq<MenuDraft>)
    requires |drafts| > 0 && ValidDraft(drafts[0]) && DistinctNames(drafts)
    ensures DistinctNames(drafts[1..])
    ensures AbsentNames(UpsertOne(store, drafts[0]), drafts[1..]) == AbsentNames(store, drafts[1..])
    ensures PresentNames(UpsertOne(store, drafts[0]), drafts[1..]) == PresentNames(store, drafts[1..])
  {
    RestNamedOtherwise(drafts);
    OtherNamesFrame(store, UpsertOne(store, drafts[0]), drafts[0].name, drafts[1..]);
  }

  /** The upsert brings in no name other than its entries'. */
  lemma {:induction false} UpsertKeepsOut(store: seq<MenuItem>, drafts: seq<MenuDraft>, names: seq<string>)
    requires AllValid(drafts)
    requires forall i | 0 <= i < |store| :: store[i].name !in names
    requires forall i | 0 <= i < |drafts| :: drafts[i].name !in names
    ensures forall x | x in Upsert(store, drafts).store :: x.name !in names
    decreases |drafts|
  {
    if |drafts| == 0 {
      forall x | x in store ensures x.name !in names {
        var k :| 0 <= k < |store| && store[k] == x;
      }
    } else {
      assert AllValid(drafts[1..]);
      UpsertOneKeepsOut(store, drafts[0], names);
      assert forall i | 0 <= i < |drafts[1..]| :: drafts[1..][i] == drafts[i + 1];
      UpsertKeepsOut(UpsertOne(store, drafts[0]), drafts[1..], names);
    }
  }

  /** One upsert step brings in no name but its entry's. */
  lemma UpsertOneKeepsOut(store: seq<MenuItem>, d: MenuDraft, names: seq<string>)
    requires ValidDraft(d) && d.name !in names
    requires forall i | 0 <= i < |store| :: store[i].name !in names
    ensures forall i | 0 <= i < |UpsertOne(store, d)| :: UpsertOne(store, d)[i].name !in names
  {
    var s := UpsertOne(store, d);
    forall i | 0 <= i < |s| ensures s[i].name !in names {
      if s[i].name != d.name {
        var j :| 0 <= j < |store| && store[j].name == s[i].name;
      }
    }
  }

  /** The upsert keeps ids unique. */
  lemma {:induction false} UpsertKeepsUniqueIds(store: seq<MenuItem>, drafts: seq<MenuDraft>)
    requires AllValid(drafts) && UniqueMenuIds(store)
    ensures UniqueMenuIds(Upsert(store, drafts).store)
    decreases |drafts|
  {
    if |drafts| > 0 {
      assert AllValid(drafts[1..]);
      UpsertKeepsUniqueIds(UpsertOne(store, drafts[0]), drafts[1..]);
    }
  }

  /** When every entry's name is present the upsert adds nothing. */
  lemma {:induction false} UpsertAllPresent(store: seq<MenuItem>, drafts: seq<MenuDraft>)
    requires AllValid(drafts) && AllNamesPresent(store, drafts)
    ensures Upsert(store, drafts).added == []
    decreases |drafts|
  {
    if |drafts| > 0 {
      var s := UpsertOne(store, drafts[0]);
      forall i | 0 <= i < |drafts[1..]| ensures HasName(s, drafts[1..][i].name) {
        var k :| 0 <= k < |store| && store[k].name == drafts[i + 1].name;
      }
      assert AllValid(drafts[1..]);
      UpsertAllPresent(s, drafts[1..]);
    }
  }

  /** The whole script: delete the old names, then upsert the entries.
      Afterwards every entry's name is present and no old name is; the entries
      reported added are those missing after the deletions, and those reported
      updated are those still there. */
  function UpdateAppetizers(store: seq<MenuItem>): (r: ScriptReport)
    ensures AllNamesPresent(r.store, ScriptAppetizers)
    ensures r.added == AbsentNames(RemoveOldItems(store, OldItemNames).0, ScriptAppetizers)
    ensures r.updated == PresentNames(RemoveOldItems(store, OldItemNames).0, ScriptAppetizers)
    ensures r.removedCount == |store| - |RemoveOldItems(store, OldItemNames).0|
    ensures forall x | x in r.store :: x.name !in OldItemNames
    ensures UniqueMenuIds(store) ==> UniqueMenuIds(r.store)
  {
    ScriptAppetizersValid();
    RemoveThenUpsert(store, ScriptAppetizers, OldItemNames);
    var removed := RemoveOldItems(store, OldItemNames);
    var up := Upsert(removed.0, ScriptAppetizers);
    ScriptReport(up.added, up.updated, removed.1, up.store)
  }

  /** Deleting some names and then upserting entries none of which carries
      one of them leaves none of those names, and keeps ids unique. */
  lemma RemoveThenUpsert(store: seq<MenuItem>, drafts: seq<MenuDraft>, names: seq<string>)
    requires AllValid(drafts)
    requires forall i | 0 <= i < |drafts| :: drafts[i].name !in names
    ensures forall x | x in Upsert(RemoveOldItems(store, names).0, drafts).store :: x.name !in names
    ensures UniqueMenuIds(store) ==> UniqueMenuIds(Upsert(RemoveOldItems(store, names).0, drafts).store)
  {
    var removed := RemoveOldItems(store, names).0;
    UpsertKeepsOut(removed, drafts, names);
    if UniqueMenuIds(store) { UpsertKeepsUniqueIds(removed, drafts); }
  }

  lemma ScriptAppetizersValid()
    ensures AllValid(ScriptAppetizers) && DistinctNames(ScriptAppetizers)
    ensures forall i | 0 <= i < |ScriptAppetizers| :: ScriptAppetizers[i].name !in OldItemNames
  {
    NamesDistinctByFirstLetter(ScriptAppetizers);
  }

  /** Running the script twice in a row: the second run deletes nothing and
      adds nothing; it only overwrites its entries again. */
  lemma UpdateAppetizersTwice(store: seq<MenuItem>)
    ensures
      var second := UpdateAppetizers(UpdateAppetizers(store).store);
      second.removedCount == 0 && second.added == [] && |second.updated| == |ScriptAppetizers|
  {
    ScriptAppetizersValid();
    var first := UpdateAppetizers(store).store;
    SecondRunIsQuiet(first, ScriptAppetizers, OldItemNames);
  }

  /** A store that carries every entry's name and none of the deleted names is
      left with nothing to delete and nothing to add. */
  lemma SecondRunIsQuiet(store: seq<MenuItem>, drafts: seq<MenuDraft>, names: seq<string>)
    requires AllValid(drafts) && AllNamesPresent(store, drafts)
    requires forall x | x in store :: x.name !in names
    ensures RemoveOldItems(store, names) == (store, 0)
    ensures Upsert(store, drafts).added == [] && |Upsert(store, drafts).updated| == |drafts|
  {
    RemoveNothing(store, names);
    UpsertAllPresent(store, drafts);
  }

  /** Deleting names nobody carries deletes nothing. */
  lemma {:induction false} RemoveNothing(store: seq<MenuItem>, names: seq<string>)
    requires forall x | x in store :: x.name !in names
    ensures RemoveOldItems(store, names) == (store, 0)
    decreases |names|
  {
    if |names| > 0 {
      FilterKeepsAll(store, (x: MenuItem) => x.name != names[0]);
      RemoveNothing(store, names[1..]);
    }
  }

  lemma {:induction false} FilterKeepsAll(store: seq<MenuItem>, keep: MenuItem -> bool)
    requires forall x | x in store :: keep(x)
    ensures Filter(store, keep) == store
    decreases |store|
  {
    if |store| > 0 {
      assert store[0] in store;
      assert forall x | x in store[1..] :: x in store;
      FilterKeepsAll(store[1..], keep);
      assert [store[0]] + store[1..] == store;
    }
  }
}

=== FILE: availability_route.dfy ===
/** GET /api/availability (app/api/availability/route.ts): picks the date to
    report on, then reports the seats left for it together with the seats held
    by confirmed and by pending records of that date. */
module AvailabilityRoute {
  import opened Wrappers
  import opened Calendar
  import opened Reservations
  import opened Ledger

  /** The date the handler reports on: the `date` query parameter when it has
      the `YYYY-MM-DD` shape, today otherwise.  The test is on the shape only. */
  function EffectiveDate(param: Option<string>, today: string): (d: string)
    ensures param.Some? && IsDateFormat(param.value) ==> d == param.value
    ensures !(param.Some? && IsDateFormat(param.value)) ==> d == today
    ensures IsDateFormat(today) ==> IsDateFormat(d)
  {
    match param
    case Some(p) => if p != "" && IsDateFormat(p) then p else today
    case None => today
  }

  /** The shape test lets through strings that name no calendar day. */
  lemma ShapeOnlyDateAccepted(today: string)
    ensures EffectiveDate(Some("2024-13-99"), today) == "2024-13-99"
    ensures Month("2024-13-99") == 13 && Day("2024-13-99") == 99
  {
    assert IsDateFormat("2024-13-99") by {
      assert "2024-13-99"[..4] == "2024";
      assert "2024-13-99"[5..7] == "13";
      assert "2024-13-99"[8..] == "99";
    }
    assert "2024-13-99"[5..7] == "13";
    assert "2024-13-99"[8..] == "99";
    assert "13"[..1] == "1" && "99"[..1] == "9";
  }

  /** The seats one record adds to the count of records with `status` on `date`. */
  function WithStatusOn(date: string, status: Status): Reservation -> int {
    (r: Reservation) => if r.date == date && r.status == status then SeatsTaken(r) else 0
  }

  /** `find({status, date})` summed with `guests || 0`. */
  function SeatsWithStatus(store: seq<Reservation>, date: string, status: Status): int {
    SumOver(store, WithStatusOn(date, status))
  }

  datatype AvailabilityBody = AvailabilityBody(
    availableSeats: int, totalCapacity: int, bookedSeats: int,
    confirmedBookedSeats: int, pendingBookedSeats: int)

  /** The handler's answer.  `getAvailableSeatsForDate` is not part of the
      model, so its answer for the effective date is a parameter; `store` is the
      store as the two status queries read it. */
  function GetAvailability(store: seq<Reservation>, param: Option<string>, today: string,
                           getAvailableSeatsForDate: string -> int): (b: AvailabilityBody)
    ensures b.totalCapacity == TotalCapacity
    ensures b.availableSeats + b.bookedSeats == TotalCapacity
    ensures b.availableSeats == getAvailableSeatsForDate(EffectiveDate(param, today))
    ensures b.confirmedBookedSeats == SeatsWithStatus(store, EffectiveDate(param, today), Confirmed)
    ensures b.pendingBookedSeats == SeatsWithStatus(store, EffectiveDate(param, today), Pending)
    ensures b.confirmedBookedSeats + b.pendingBookedSeats == BookedSeats(store, EffectiveDate(param, today))
    ensures (forall i | 0 <= i < |store| :: SeatsTaken(store[i]) >= 0) ==>
      b.confirmedBookedSeats >= 0 && b.pendingBookedSeats >= 0
  {
    var date := EffectiveDate(param, today);
    var available := getAvailableSeatsForDate(date);
    var confirmed := SeatsWithStatus(store, date, Confirmed);
    var pending := SeatsWithStatus(store, date, Pending);
    StatusSplit(store, date);
    StatusSeatsNonNegative(store, date, Confirmed);
    StatusSeatsNonNegative(store, date, Pending);
    AvailabilityBody(available, TotalCapacity, TotalCapacity - available, confirmed, pending)
  }

  /** The confirmed and pending breakdowns add up to the ledger's booked seats
      for the date, since only those two statuses hold seats. */
  lemma {:induction false} StatusSplit(store: seq<Reservation>, date: string)
    ensures SeatsWithStatus(store, date, Confirmed) + SeatsWithStatus(store, date, Pending)
         == BookedSeats(store, date)
    decreases |store|
  {
    if |store| > 0 {
      StatusSplit(store[1..], date);
    }
  }

  /** A record adds its seats to the breakdown of its own status and date, and
      leaves every other breakdown as it was. */
  lemma StatusSeatsAppend(store: seq<Reservation>, r: Reservation, date: string, status: Status)
    ensures SeatsWithStatus(store + [r], date, status) ==
      SeatsWithStatus(store, date, status) + (if r.date == date && r.status == status then SeatsTaken(r) else 0)
  {
    SumOverAppend(store, [r], WithStatusOn(date, status));
    assert [r][1..] == [];
  }

  lemma {:induction false} StatusSeatsNonNegative(store: seq<Reservation>, date: string, status: Status)
    ensures (forall i | 0 <= i < |store| :: SeatsTaken(store[i]) >= 0) ==> SeatsWithStatus(store, date, status) >= 0
    decreases |store|
  {
    if |store| > 0 {
      StatusSeatsNonNegative(store[1..], date, status);
      assert forall i | 0 <= i < |store[1..]| :: store[1..][i] == store[i + 1];
    }
  }
}

=== FILE: calendar.dfy ===
/** Dates and clock times as the reservation code handles them: dates are
    zero-padded `YYYY-MM-DD` strings compared with the string `<`, times are
    `HH:MM` strings read with `split(':').map(Number)`, and the current moment is
    an injected `Clock` rather than a read of the system clock. */
module Calendar {
  import opened Wrappers
  import opened Text

  // ------------------------------------------------------------------ dates

  /** The test `/^\d{4}-\d{2}-\d{2}$/`: a format check only, so month 13 or day 99
      pass it. */
  predicate IsDateFormat(s: string) {
    && |s| == 10 && s[4] == '-' && s[7] == '-'
    && AllDigits(s[..4]) && AllDigits(s[5..7]) && AllDigits(s[8..])
  }

  function Year(s: string): nat
    requires IsDateFormat(s)
  {
    DigitsValue(s[..4])
  }

  function Month(s: string): (m: nat)
    requires IsDateFormat(s)
    ensures m < 100
  {
    DigitsValue(s[5..7])
  }

  function Day(s: string): (d: nat)
    requires IsDateFormat(s)
    ensures d < 100
  {
    DigitsValue(s[8..])
  }

  /** A number that orders dates as the calendar does (`yyyymmdd`). */
  function DateKey(s: string): nat
    requires IsDateFormat(s)
  {
    Year(s) * 10000 + Month(s) * 100 + Day(s)
  }

  /** The string `<` the code uses on dates agrees with calendar order, and two
      dates are the same string exactly when they are the same day. */
  lemma DateOrder(a: string, b: string)
    requires IsDateFormat(a) && IsDateFormat(b)
    ensures StrLess(a, b) <==> DateKey(a) < DateKey(b)
    ensures a == b <==> DateKey(a) == DateKey(b)
  {
    DateLess(a, b);
    DateLess(b, a);
    if a != b {
      StrLessTotal(a, b);
    }
  }

  lemma DateLess(a: string, b: string)
    requires IsDateFormat(a) && IsDateFormat(b)
    ensures StrLess(a, b) <==> DateKey(a) < DateKey(b)
  {
    assert StrLess(a, b) == (if a[..4] == b[..4] then StrLess(a[4..], b[4..]) else StrLess(a[..4], b[..4])) by {
      assert a == a[..4] + a[4..] && b == b[..4] + b[4..];
      StrLessAppend(a[..4], a[4..], b[..4], b[4..]);
    }
    DigitsOrder(a[..4], b[..4]);
    if a[..4] == b[..4] {
      MonthDayLess(a, b);
    } else {
      DigitsInjective(a[..4], b[..4]);
    }
  }

  /** Within one year, the string order of the `-MM-DD` tails is the order of
      month and day. */
  lemma MonthDayLess(a: string, b: string)
    requires IsDateFormat(a) && IsDateFormat(b)
    ensures StrLess(a[4..], b[4..]) <==> Month(a) * 100 + Day(a) < Month(b) * 100 + Day(b)
  {
    assert StrLess(a[4..], b[4..]) == StrLess(a[5..], b[5..]) by {
      assert a[4..] == a[4..5] + a[5..] && b[4..] == b[4..5] + b[5..];
      assert a[4..5] == b[4..5];
      StrLessAppend(a[4..5], a[5..], b[4..5], b[5..]);
    }
    assert StrLess(a[5..], b[5..]) == (if a[5..7] == b[5..7] then StrLess(a[7..], b[7..]) else StrLess(a[5..7], b[5..7])) by {
      assert a[5..] == a[5..7] + a[7..] && b[5..] == b[5..7] + b[7..];
      StrLessAppend(a[5..7], a[7..], b[5..7], b[7..]);
    }
    DigitsOrder(a[5..7], b[5..7]);
    if a[5..7] == b[5..7] {
      assert StrLess(a[7..], b[7..]) == StrLess(a[8..], b[8..]) by {
        assert a[7..] == a[7..8] + a[8..] && b[7..] == b[7..8] + b[8..];
        assert a[7..8] == b[7..8];
        StrLessAppend(a[7..8], a[8..], b[7..8], b[8..]);
      }
      DigitsOrder(a[8..], b[8..]);
    } else {
      DigitsInjective(a[5..7], b[5..7]);
    }
  }

  // ------------------------------------------------------------------ clock

  /** The injected current moment: today's date as `getTodayDate` renders it,
      milliseconds elapsed since today's local midnight, and the ISO timestamp
      `new Date().toISOString()` would give. */
  datatype Clock = Clock(today: string, nowMs: nat, stamp: string)

  predicate ValidClock(c: Clock) {
    IsDateFormat(c.today) && c.nowMs < 24 * 60 * 60 * 1000
  }

  /** Whether `new Date(date)`, moved to its local midnight, is before today's
      local midnight.  Dates in `YYYY-MM-DD` form with a month 01–12 and a day
      01–31 are compared as days; any other string is an Invalid Date, which is
      never before anything.  On calendar-shaped dates the test agrees with the
      string `<` the ledger uses. */
  predicate IsBeforeToday(date: string, today: string)
    requires IsDateFormat(today)
    ensures IsBeforeToday(date, today) ==> IsDateFormat(date) && StrLess(date, today)
    ensures IsDateFormat(date) && 1 <= Month(date) <= 12 && 1 <= Day(date) <= 31 ==>
      (IsBeforeToday(date, today) <==> StrLess(date, today))
  {
    if IsDateFormat(date) then
      DateOrder(date, today);
      1 <= Month(date) <= 12 && 1 <= Day(date) <= 31 && DateKey(date) < DateKey(today)
    else false
  }

  // ------------------------------------------------------------------ times

  /** The index of the first occurrence of `c` in `s`. */
  function IndexOf(s: string, c: char): (r: Option<nat>)
    ensures r.None? ==> c !in s
    ensures r.Some? ==> r.value < |s| && s[r.value] == c && c !in s[..r.value]
  {
    if c !in s then None
    else if s[0] == c then Some(0)
    else
      var i := IndexOf(s[1..], c).value;
      assert s[..i + 1] == [s[0]] + s[1..][..i];
      Some(i + 1)
  }

  /** `Number(part)` for parts that, once trimmed, are all digits (the empty
      part reads as 0); `None` stands for NaN. */
  function NumberOfPart(part: string): Option<nat> {
    var t := Trim(part);
    if AllDigits(t) then Some(DigitsValue(t)) else None
  }

  /** `const [hours, minutes] = time.split(':').map(Number)`, turned into minutes
      after midnight; `None` when either part is NaN or missing. */
  function ClockMinutes(time: string): (m: Option<nat>)
    ensures ':' !in time ==> m.None?
  {
    match IndexOf(time, ':')
    case None => None
    case Some(i) =>
      var rest := time[i + 1..];
      var minutesPart := match IndexOf(rest, ':') case None => rest case Some(j) => rest[..j];
      match (NumberOfPart(time[..i]), NumberOfPart(minutesPart))
      case (Some(h), Some(m)) => Some(h * 60 + m)
      case _ => None
  }

  /** A well-formed `HH:MM` time. */
  predicate IsClockTime(t: string) {
    |t| == 5 && t[2] == ':' && AllDigits(t[..2]) && AllDigits(t[3..])
  }

  /** A well-formed `HH:MM` time reads as `HH * 60 + MM` minutes. */
  lemma ClockTimeMinutes(t: string)
    requires IsClockTime(t)
    ensures ClockMinutes(t) == Some(DigitsValue(t[..2]) * 60 + DigitsValue(t[3..]))
  {
    assert ':' !in t[..2];
    assert IndexOf(t, ':') == Some(2);
    assert ':' !in t[3..];
    TrimDigits(t[..2]);
    TrimDigits(t[3..]);
  }

  lemma TrimDigits(s: string)
    requires AllDigits(s)
    ensures Trim(s) == s
  {
    if |s| > 0 {
      assert !IsJsSpace(s[0]) && !IsJsSpace(s[|s| - 1]);
      assert TrimStart(s) == s;
      assert TrimEnd(s) == s;
    }
  }
}

=== FILE: email.dfy ===
/** The pure helpers of the admin notification e-mail (lib/email.ts): HTML
    escaping, the guest label and the rule for the special-requests block. */
module Email {
  import opened Wrappers
  import opened Text

  /** The five characters `escapeHtml` replaces. */
  predicate IsSpecial(c: char) {
    c == '&' || c == '<' || c == '>' || c == '"' || c == '\''
  }

  /** The characters that can open or close markup or an attribute value. */
  predicate IsMarkup(c: char) {
    c == '<' || c == '>' || c == '"' || c == '\''
  }

  function EscapeChar(c: char): (e: string)
    ensures !IsSpecial(c) <==> e == [c]
    ensures forall i | 0 <= i < |e| :: !IsMarkup(e[i])
    ensures |e| == 1 + (if c == '&' then 4 else if c == '<' || c == '>' then 3
                        else if c == '"' || c == '\'' then 5 else 0)
  {
    match c
    case '&' => "&amp;"
    case '<' => "&lt;"
    case '>' => "&gt;"
    case '"' => "&quot;"
    case '\'' => "&#039;"
    case _ => [c]
  }

  /** The number of occurrences of `c` in `s`. */
  function Count(s: string, c: char): nat {
    if |s| == 0 then 0 else (if s[0] == c then 1 else 0) + Count(s[1..], c)
  }

  /** `escapeHtml`: each special character becomes its entity and every other
      character is kept.  The output holds no markup character, and it is four
      characters longer per `&`, three per `<` or `>`, and five per `"` or `'`. */
  function EscapeHtml(s: string): (r: string)
    ensures forall i | 0 <= i < |r| :: !IsMarkup(r[i])
    ensures |r| == |s| + 4 * Count(s, '&') + 3 * Count(s, '<') + 3 * Count(s, '>')
                       + 5 * Count(s, '"') + 5 * Count(s, '\'')
    decreases |s|
  {
    if |s| == 0 then ""
    else
      var head := EscapeChar(s[0]);
      var tail := EscapeHtml(s[1..]);
      head + tail
  }

  /** Reads the five entities back; any other character is kept. */
  function UnescapeHtml(s: string): string
    decreases |s|
  {
    if |s| == 0 then ""
    else if HasPrefix(s, "&amp;") then "&" + UnescapeHtml(s[5..])
    else if HasPrefix(s, "&lt;") then "<" + UnescapeHtml(s[4..])
    else if HasPrefix(s, "&gt;") then ">" + UnescapeHtml(s[4..])
    else if HasPrefix(s, "&quot;") then "\"" + UnescapeHtml(s[6..])
    else if HasPrefix(s, "&#039;") then "'" + UnescapeHtml(s[6..])
    else [s[0]] + UnescapeHtml(s[1..])
  }

  predicate HasPrefix(s: string, p: string) {
    |p| <= |s| && s[..|p|] == p
  }

  /** Escaping loses nothing: the original text is read back from the output. */
  lemma {:induction false} EscapeRoundTrip(s: string)
    ensures UnescapeHtml(EscapeHtml(s)) == s
    decreases |s|
  {
    if |s| > 0 {
      EscapeRoundTrip(s[1..]);
      UnescapeAfterEscapeChar(s[0], EscapeHtml(s[1..]));
      assert [s[0]] + s[1..] == s;
    }
  }

  /** Unescaping reads one escaped character back and goes on with the rest. */
  lemma UnescapeAfterEscapeChar(c: char, t: string)
    ensures UnescapeHtml(EscapeChar(c) + t) == [c] + UnescapeHtml(t)
  {
    if c == '&' {
      UnescapeEntity("&amp;", t, 1);
    } else if c == '<' {
      UnescapeEntity("&lt;", t, 2);
    } else if c == '>' {
      UnescapeEntity("&gt;", t, 3);
    } else if c == '"' {
      UnescapeEntity("&quot;", t, 4);
    } else if c == '\'' {
      UnescapeEntity("&#039;", t, 5);
    } else {
      UnescapePlain(c, t);
    }
  }

  /** A character other than `&` is read back as itself. */
  lemma UnescapePlain(c: char, t: string)
    requires c != '&'
    ensures UnescapeHtml([c] + t) == [c] + UnescapeHtml(t)
  {
    var e := [c] + t;
    assert e[0] == c && e[1..] == t;
    DiffersAt(e, "&amp;", 0);
    DiffersAt(e, "&lt;", 0);
    DiffersAt(e, "&gt;", 0);
    DiffersAt(e, "&quot;", 0);
    DiffersAt(e, "&#039;", 0);
  }

  /** The `k`-th entity, in the order `UnescapeHtml` tries them, is read back as
      its character. */
  lemma UnescapeEntity(entity: string, t: string, k: nat)
    requires 1 <= k <= 5
    requires entity == ["&amp;", "&lt;", "&gt;", "&quot;", "&#039;"][k - 1]
    ensures UnescapeHtml(entity + t) == ["&<>\"'"[k - 1]] + UnescapeHtml(t)
  {
    var e := entity + t;
    assert HasPrefix(e, entity) && e[|entity|..] == t by {
      assert e[..|entity|] == entity;
    }
    assert e[1] == entity[1];
    if k > 1 { DiffersAt(e, "&amp;", 1); }
    if k > 2 { DiffersAt(e, "&lt;", 1); }
    if k > 3 { DiffersAt(e, "&gt;", 1); }
    if k > 4 { DiffersAt(e, "&quot;", 1); }
  }

  /** A string that differs from `p` at a position of both is not prefixed by `p`. */
  lemma DiffersAt(s: string, p: string, k: nat)
    requires k < |p| && k < |s| && s[k] != p[k]
    ensures !HasPrefix(s, p)
  {
    if |p| <= |s| {
      assert s[..|p|][k] == s[k];
    }
  }

  /** Escaping a concatenation is concatenating the escapes. */
  lemma {:induction false} EscapeConcat(a: string, b: string)
    ensures EscapeHtml(a + b) == EscapeHtml(a) + EscapeHtml(b)
    decreases |a|
  {
    if |a| > 0 {
      assert (a + b)[1..] == a[1..] + b;
      EscapeConcat(a[1..], b);
    } else {
      assert a + b == b;
    }
  }

  /** Text without special characters is left as it is. */
  lemma {:induction false} EscapeIdentity(s: string)
    requires forall i | 0 <= i < |s| :: !IsSpecial(s[i])
    ensures EscapeHtml(s) == s
    decreases |s|
  {
    if |s| > 0 {
      EscapeIdentity(s[1..]);
      assert [s[0]] + s[1..] == s;
    }
  }

  /** The word after the guest count in the e-mail. */
  function GuestLabel(guests: Option<int>): (w: string)
    ensures w == "guest" <==> guests == Some(1)
    ensures w == "guest" || w == "guests"
  {
    if guests == Some(1) then "guest" else "guests"
  }

  /** The content of the special-requests block, `None` when the block is left
      out: it is shown exactly when the trimmed text is non-empty, and it shows
      that trimmed text escaped. */
  function SpecialRequestsBlock(specialRequests: Option<string>): (b: Option<string>)
    ensures b.Some? <==> specialRequests.Some? && Trim(specialRequests.value) != ""
    ensures b.Some? ==> b.value == EscapeHtml(Trim(specialRequests.value))
    ensures b.Some? ==> forall i | 0 <= i < |b.value| :: !IsMarkup(b.value[i])
  {
    match specialRequests
    case Some(text) =>
      if text != "" && Trim(text) != "" then Some(EscapeHtml(Trim(text))) else None
    case None => None
  }
}

=== FILE: ledger.dfy ===
/** The reservation ledger of lib/data.ts: the two lazy correction passes (the
    previous-day reset and the same-day no-show expiry), the seat count for today
    that runs them first, and the field-level updates and creation of records.
    The database is an immutable sequence of records and each operation returns
    the sequence it leaves behind. */
module Ledger {
  import opened Wrappers
  import opened Text
  import opened Calendar
  import opened Reservations

  /** Seats the restaurant has for a whole day. */
  const TotalCapacity := 70

  /** How long after its time a reservation is kept without a check-in. */
  const GraceMs := 15 * 60 * 1000

  const ResetReason := "Reservation cancelled - daily seat reset"
  const ExpiredReason := "Reservation expired - customer did not check in on time"

  // ------------------------------------------------------------- expiry test

  /** `isReservationExpired`: a past date is expired; today's reservation is
      expired once now is strictly later than its time plus the grace period (a
      time that does not read as a number never expires); a later date is not. */
  predicate IsReservationExpired(r: Reservation, clock: Clock)
    ensures StrLess(r.date, clock.today) ==> IsReservationExpired(r, clock)
    ensures IsReservationExpired(r, clock) && !StrLess(r.date, clock.today) ==>
      r.date == clock.today && ClockMinutes(r.time).Some?
  {
    if StrLess(r.date, clock.today) then true
    else if r.date == clock.today then
      match ClockMinutes(r.time)
      case None => false
      case Some(m) => clock.nowMs > m * 60000 + GraceMs
    else false
  }

  /** In calendar terms: any day before today is expired and any day after
      today is not, whatever the time. */
  lemma ExpiredByDay(r: Reservation, clock: Clock)
    requires ValidClock(clock) && IsDateFormat(r.date)
    ensures DateKey(r.date) < DateKey(clock.today) ==> IsReservationExpired(r, clock)
    ensures DateKey(r.date) > DateKey(clock.today) ==> !IsReservationExpired(r, clock)
  {
    DateOrder(r.date, clock.today);
  }

  /** Today's reservation at a well-formed `HH:MM` expires exactly when more
      than `HH * 60 + MM` minutes plus the grace period have passed. */
  lemma ExpiredToday(r: Reservation, clock: Clock)
    requires r.date == clock.today && IsClockTime(r.time)
    ensures IsReservationExpired(r, clock)
      <==> clock.nowMs > (DigitsValue(r.time[..2]) * 60 + DigitsValue(r.time[3..])) * 60000 + GraceMs
  {
    ClockTimeMinutes(r.time);
    StrLessIrreflexive(r.date);
  }

  // -------------------------------------------------------- correction passes

  /** A correction pass's result: the store it leaves and the count it reports. */
  datatype Pass = Pass(store: seq<Reservation>, count: nat)

  /** The update both passes apply to a record they cancel. */
  function Reject(r: Reservation, reason: string): Reservation {
    r.(status := Rejected, rejectionReason := Some(reason))
  }

  /** The number of positions at which two equally long stores differ. */
  function Changed(before: seq<Reservation>, after: seq<Reservation>): nat
    requires |before| == |after|
  {
    if |before| == 0 then 0
    else (if before[0] != after[0] then 1 else 0) + Changed(before[1..], after[1..])
  }

  lemma {:induction false} ChangedNone(s: seq<Reservation>)
    ensures Changed(s, s) == 0
    decreases |s|
  {
    if |s| > 0 { ChangedNone(s[1..]); }
  }

  /** Rejects, with `reason`, every record `due` selects and keeps every other
      one; as `due` only selects active records, each rejection is a change and
      the count is the number of records changed. */
  function RejectWhere(store: seq<Reservation>, due: Reservation -> bool, reason: string): (p: Pass)
    requires forall r :: due(r) ==> IsActive(r)
    ensures |p.store| == |store|
    ensures forall i | 0 <= i < |store| :: due(store[i]) ==> p.store[i] == Reject(store[i], reason)
    ensures forall i | 0 <= i < |store| :: !due(store[i]) ==> p.store[i] == store[i]
    ensures p.count == Changed(store, p.store)
    decreases |store|
  {
    if |store| == 0 then Pass([], 0)
    else
      var rest := RejectWhere(store[1..], due, reason);
      var head := if due(store[0]) then Reject(store[0], reason) else store[0];
      var out := [head] + rest.store;
      assert out[1..] == rest.store;
      Pass(out, (if due(store[0]) then 1 else 0) + rest.count)
  }

  /** Whether the previous-day reset cancels a record. */
  predicate DueForReset(r: Reservation, today: string) {
    StrLess(r.date, today) && IsActive(r)
  }

  /** `cancelPreviousDayReservations`: every pending or confirmed record dated
      before today, checked in or not, becomes rejected with the reset reason;
      nothing else changes, and the count is the number of records changed. */
  function CancelPreviousDayReservations(store: seq<Reservation>, today: string): (p: Pass)
    ensures |p.store| == |store|
    ensures forall i | 0 <= i < |store| && StrLess(store[i].date, today) && IsActive(store[i]) ::
      p.store[i] == store[i].(status := Rejected, rejectionReason := Some(ResetReason))
    ensures forall i | 0 <= i < |store| && !(StrLess(store[i].date, today) && IsActive(store[i])) ::
      p.store[i] == store[i]
    ensures p.count == Changed(store, p.store)
  {
    RejectWhere(store, r => DueForReset(r, today), ResetReason)
  }

  /** Whether the same-day expiry cancels a record. */
  predicate DueForExpiry(r: Reservation, clock: Clock) {
    r.date == clock.today && IsActive(r) && !r.checkedIn && IsReservationExpired(r, clock)
  }

  /** `cancelExpiredReservations`: today's pending or confirmed records that are
      not checked in and whose time plus the grace period is strictly past become
      rejected with the expiry reason.  Checked-in records and records of other
      days are never touched, and the count is the number of records changed. */
  function CancelExpiredReservations(store: seq<Reservation>, clock: Clock): (p: Pass)
    ensures |p.store| == |store|
    ensures forall i | 0 <= i < |store| && DueForExpiry(store[i], clock) ::
      p.store[i] == store[i].(status := Rejected, rejectionReason := Some(ExpiredReason))
    ensures forall i | 0 <= i < |store| && !DueForExpiry(store[i], clock) :: p.store[i] == store[i]
    ensures forall i | 0 <= i < |store| && store[i].checkedIn :: p.store[i] == store[i]
    ensures forall i | 0 <= i < |store| && store[i].date != clock.today :: p.store[i] == store[i]
    ensures p.count == Changed(store, p.store)
  {
    RejectWhere(store, r => DueForExpiry(r, clock), ExpiredReason)
  }

  /** A second previous-day reset finds nothing to do. */
  lemma ResetIdempotent(store: seq<Reservation>, today: string)
    ensures var p := CancelPreviousDayReservations(store, today);
      CancelPreviousDayReservations(p.store, today) == Pass(p.store, 0)
  {
    var p := CancelPreviousDayReservations(store, today);
    var q := CancelPreviousDayReservations(p.store, today);
    assert q.store == p.store;
    ChangedNone(p.store);
  }

  /** A second expiry pass finds nothing to do. */
  lemma ExpiryIdempotent(store: seq<Reservation>, clock: Clock)
    ensures var p := CancelExpiredReservations(store, clock);
      CancelExpiredReservations(p.store, clock) == Pass(p.store, 0)
  {
    var p := CancelExpiredReservations(store, clock);
    var q := CancelExpiredReservations(p.store, clock);
    assert q.store == p.store;
    ChangedNone(p.store);
  }

  /** The two passes touch disjoint records (dates before today, and today), so
      running them in either order leaves the same store. */
  lemma PassesCommute(store: seq<Reservation>, clock: Clock)
    ensures CancelExpiredReservations(CancelPreviousDayReservations(store, clock.today).store, clock).store
         == CancelPreviousDayReservations(CancelExpiredReservations(store, clock).store, clock.today).store
  {
    var a := CancelExpiredReservations(CancelPreviousDayReservations(store, clock.today).store, clock).store;
    var b := CancelPreviousDayReservations(CancelExpiredReservations(store, clock).store, clock.today).store;
    forall i | 0 <= i < |store| ensures a[i] == b[i] {
      StrLessIrreflexive(clock.today);
    }
  }

  // ------------------------------------------------------------ availability

  /** A sum over the records of a store. */
  function SumOver(store: seq<Reservation>, f: Reservation -> int): int
    decreases |store|
  {
    if |store| == 0 then 0 else f(store[0]) + SumOver(store[1..], f)
  }

  lemma {:induction false} SumOverPointwise(a: seq<Reservation>, f: Reservation -> int,
                                            b: seq<Reservation>, g: Reservation -> int)
    requires |a| == |b|
    requires forall i | 0 <= i < |a| :: f(a[i]) == g(b[i])
    ensures SumOver(a, f) == SumOver(b, g)
    decreases |a|
  {
    if |a| > 0 { SumOverPointwise(a[1..], f, b[1..], g); }
  }

  lemma {:induction false} SumOverAppend(a: seq<Reservation>, b: seq<Reservation>, f: Reservation -> int)
    ensures SumOver(a + b, f) == SumOver(a, f) + SumOver(b, f)
    decreases |a|
  {
    if |a| > 0 {
      assert (a + b)[1..] == a[1..] + b;
      SumOverAppend(a[1..], b, f);
    } else {
      assert a + b == b;
    }
  }

  lemma {:induction false} SumOverNonNegative(a: seq<Reservation>, f: Reservation -> int)
    requires forall i | 0 <= i < |a| :: f(a[i]) >= 0
    ensures SumOver(a, f) >= 0
    decreases |a|
  {
    if |a| > 0 { SumOverNonNegative(a[1..], f); }
  }

  /** What one record contributes to the seats booked on `date`. */
  function BookedOn(date: string): Reservation -> int {
    (r: Reservation) => if r.date == date && IsActive(r) then SeatsTaken(r) else 0
  }

  /** Seats held on `date` by the pending and confirmed records of the store. */
  function BookedSeats(store: seq<Reservation>, date: string): int {
    SumOver(store, BookedOn(date))
  }

  /** What one record of the store as it stands contributes to today's count
      once both passes have run: it must be today's, active, and not due to
      expire. */
  function StillHeld(clock: Clock): Reservation -> int {
    (r: Reservation) => if r.date == clock.today && IsActive(r) && !DueForExpiry(r, clock) then SeatsTaken(r) else 0
  }

  /** The independent reference for today's bookings: a sum over the
      uncorrected store. */
  function HeldSeats(store: seq<Reservation>, clock: Clock): int {
    SumOver(store, StillHeld(clock))
  }

  function Max0(x: int): (m: int)
    ensures m >= 0 && m >= x && (m == 0 || m == x)
  {
    if x < 0 then 0 else x
  }

  /** The seat count `getAvailableSeats` returns and the store it leaves. */
  datatype Seats = Seats(available: int, store: seq<Reservation>)

  /** `getAvailableSeats`: runs the reset, then the expiry, then counts what is
      left of today's bookings against the capacity.  The count equals the
      capacity minus the guests of today's active records that the passes do not
      cancel, floored at 0, and it never exceeds the capacity when no record
      holds a negative guest count. */
  function GetAvailableSeats(store: seq<Reservation>, clock: Clock): (s: Seats)
    ensures s.available == Max0(TotalCapacity - HeldSeats(store, clock))
    ensures 0 <= s.available
    ensures (forall i | 0 <= i < |store| :: SeatsTaken(store[i]) >= 0) ==> s.available <= TotalCapacity
    ensures |s.store| == |store|
    ensures s.store == CancelExpiredReservations(CancelPreviousDayReservations(store, clock.today).store, clock).store
  {
    var reset := CancelPreviousDayReservations(store, clock.today).store;
    var expired := CancelExpiredReservations(reset, clock).store;
    BookedAfterPasses(store, clock);
    HeldNonNegative(store, clock);
    Seats(Max0(TotalCapacity - BookedSeats(expired, clock.today)), expired)
  }

  lemma HeldNonNegative(store: seq<Reservation>, clock: Clock)
    ensures (forall i | 0 <= i < |store| :: SeatsTaken(store[i]) >= 0) ==> HeldSeats(store, clock) >= 0
  {
    if forall i | 0 <= i < |store| :: SeatsTaken(store[i]) >= 0 {
      SumOverNonNegative(store, StillHeld(clock));
    }
  }

  /** After both passes, the bookings for today are exactly the reference sum. */
  lemma BookedAfterPasses(store: seq<Reservation>, clock: Clock)
    ensures BookedSeats(CancelExpiredReservations(CancelPreviousDayReservations(store, clock.today).store, clock).store, clock.today)
         == HeldSeats(store, clock)
  {
    var reset := CancelPreviousDayReservations(store, clock.today).store;
    var expired := CancelExpiredReservations(reset, clock).store;
    forall i | 0 <= i < |store| ensures BookedOn(clock.today)(expired[i]) == StillHeld(clock)(store[i]) {
      StrLessIrreflexive(clock.today);
      if store[i].date == clock.today {
        assert reset[i] == store[i];
      }
    }
    SumOverPointwise(expired, BookedOn(clock.today), store, StillHeld(clock));
  }

  /** `checkAvailability`'s answer and the store the seat count leaves. */
  datatype Check = Check(available: bool, availableSeats: int, store: seq<Reservation>)

  /** `checkAvailability`: the request fits exactly when the requested guests do
      not exceed what is left of today's capacity after both passes. */
  function CheckAvailability(store: seq<Reservation>, clock: Clock, requestedGuests: int): (c: Check)
    ensures c.available <==> requestedGuests <= Max0(TotalCapacity - HeldSeats(store, clock))
    ensures c.availableSeats == Max0(TotalCapacity - HeldSeats(store, clock))
    ensures c.store == CancelExpiredReservations(CancelPreviousDayReservations(store, clock.today).store, clock).store
  {
    var s := GetAvailableSeats(store, clock);
    Check(s.available >= requestedGuests, s.available, s.store)
  }

  /** Fewer requested guests are never less available. */
  lemma CheckAvailabilityMonotone(store: seq<Reservation>, clock: Clock, fewer: int, more: int)
    requires fewer <= more
    ensures CheckAvailability(store, clock, more).available ==> CheckAvailability(store, clock, fewer).available
  {
  }

  /** Both passes, and so the seat count, keep the schema's constraints: they
      only change status and reason. */
  lemma PassesPreserveValidStore(store: seq<Reservation>, clock: Clock)
    requires ValidStore(store)
    ensures ValidStore(CancelPreviousDayReservations(store, clock.today).store)
    ensures ValidStore(CancelExpiredReservations(store, clock).store)
    ensures ValidStore(GetAvailableSeats(store, clock).store)
  {
    var a := CancelPreviousDayReservations(store, clock.today).store;
    SameIdsKeepValid(store, a, ResetReason);
    SameIdsKeepValid(store, CancelExpiredReservations(store, clock).store, ExpiredReason);
    SameIdsKeepValid(a, CancelExpiredReservations(a, clock).store, ExpiredReason);
  }

  /** A store in which some records of a valid store are rejected with a
      reason is still valid. */
  lemma SameIdsKeepValid(before: seq<Reservation>, after: seq<Reservation>, reason: string)
    requires ValidStore(before) && |after| == |before|
    requires forall i | 0 <= i < |before| :: after[i] == before[i] || after[i] == Reject(before[i], reason)
    ensures ValidStore(after)
  {
    assert forall i | 0 <= i < |before| :: after[i].id == before[i].id;
  }

  /** Both passes, and so the seat count, give every record they cancel a
      reason, so they keep "a reason exactly when rejected". */
  lemma PassesPreserveReasons(store: seq<Reservation>, clock: Clock)
    requires AllReasonConsistent(store)
    ensures AllReasonConsistent(CancelPreviousDayReservations(store, clock.today).store)
    ensures AllReasonConsistent(CancelExpiredReservations(store, clock).store)
    ensures AllReasonConsistent(GetAvailableSeats(store, clock).store)
  {
  }

  // ---------------------------------------------------------------- updates

  /** The first position holding `id`: `findOneAndUpdate({ id }, …)` changes the
      first matching record. */
  function FindById(store: seq<Reservation>, id: string): (k: Option<nat>)
    ensures k.None? <==> FreshId(store, id)
    ensures k.Some? ==> k.value < |store| && store[k.value].id == id && FreshId(store[..k.value], id)
    decreases |store|
  {
    if |store| == 0 then None
    else if store[0].id == id then Some(0)
    else match FindById(store[1..], id)
      case None => None
      case Some(k) => Some(k + 1)
  }

  /** An update's result (`null` is `None`) and the store it leaves. */
  datatype Updated = Updated(result: Option<Reservation>, store: seq<Reservation>)

  /** `updateReservationStatus`: an unknown id changes nothing and gives `None`.
      Otherwise the first record with that id takes the new status; a status
      other than rejected clears the reason, rejected with a non-empty reason
      stores it, and rejected without one keeps whatever reason was there.  No
      other field and no other record changes, and the updated record is
      returned. */
  function UpdateReservationStatus(store: seq<Reservation>, id: string, status: Status, rejectionReason: string): (u: Updated)
    ensures FreshId(store, id) ==> u == Updated(None, store)
    ensures !FreshId(store, id) ==>
      var k := FindById(store, id).value;
      && |u.store| == |store| && u.result == Some(u.store[k])
      && (forall j | 0 <= j < |store| && j != k :: u.store[j] == store[j])
      && u.store[k] == store[k].(status := status, rejectionReason := u.store[k].rejectionReason)
      && (status != Rejected ==> u.store[k].rejectionReason == None)
      && (status == Rejected && rejectionReason != "" ==> u.store[k].rejectionReason == Some(rejectionReason))
      && (status == Rejected && rejectionReason == "" ==> u.store[k].rejectionReason == store[k].rejectionReason)
  {
    match FindById(store, id)
    case None => Updated(None, store)
    case Some(k) =>
      var r := store[k];
      var r' :=
        if status == Rejected && rejectionReason != "" then r.(status := status, rejectionReason := Some(rejectionReason))
        else if status != Rejected then r.(status := status, rejectionReason := None)
        else r.(status := status);
      Updated(Some(r'), store[k := r'])
  }

  /** `updateCheckedInStatus`: an unknown id changes nothing and gives `None`.
      Otherwise the first record with that id gets the flag; checking in stamps
      `checkedInAt` with now and checking out clears it.  The status and every
      other field and record stay as they were. */
  function UpdateCheckedInStatus(store: seq<Reservation>, id: string, checkedIn: bool, now: string): (u: Updated)
    ensures FreshId(store, id) ==> u == Updated(None, store)
    ensures !FreshId(store, id) ==>
      var k := FindById(store, id).value;
      && |u.store| == |store| && u.result == Some(u.store[k])
      && (forall j | 0 <= j < |store| && j != k :: u.store[j] == store[j])
      && u.store[k].status == store[k].status
      && u.store[k].checkedIn == checkedIn
      && u.store[k].checkedInAt == (if checkedIn then Some(now) else None)
      && u.store[k] == store[k].(checkedIn := u.store[k].checkedIn, checkedInAt := u.store[k].checkedInAt)
  {
    match FindById(store, id)
    case None => Updated(None, store)
    case Some(k) =>
      var r' := store[k].(checkedIn := checkedIn, checkedInAt := if checkedIn then Some(now) else None);
      Updated(Some(r'), store[k := r'])
  }

  /** Checking a guest in and then out stamps and then clears `checkedInAt` and
      leaves the status alone throughout. */
  lemma CheckInThenOut(store: seq<Reservation>, id: string, now: string, later: string)
    requires !FreshId(store, id)
    ensures
      var k := FindById(store, id).value;
      var inStore := UpdateCheckedInStatus(store, id, true, now).store;
      var outStore := UpdateCheckedInStatus(inStore, id, false, later).store;
      && inStore[k].checkedInAt == Some(now) && inStore[k].status == store[k].status
      && outStore[k].checkedInAt == None && outStore[k].status == store[k].status
      && outStore[k] == store[k].(checkedIn := false, checkedInAt := None)
  {
    var k := FindById(store, id).value;
    var inStore := UpdateCheckedInStatus(store, id, true, now).store;
    assert inStore[k].id == id && FreshId(inStore[..k], id) by {
      assert inStore[..k] == store[..k];
    }
    assert FindById(inStore, id) == Some(k) by {
      FirstIndexUnique(inStore, id, k);
    }
  }

  /** The first position of an id is the one before which it does not occur. */
  lemma FirstIndexUnique(store: seq<Reservation>, id: string, k: nat)
    requires k < |store| && store[k].id == id && FreshId(store[..k], id)
    ensures FindById(store, id) == Some(k)
  {
    var f := FindById(store, id);
    assert f.Some?;
    assert forall j | 0 <= j < k :: store[..k][j] == store[j];
    assert forall j | 0 <= j < f.value :: store[..f.value][j] == store[j];
  }

  /** Neither update changes an id, a guest count or a required field, so both
      keep the schema's constraints. */
  lemma UpdatesPreserveValidStore(store: seq<Reservation>, id: string, status: Status, reason: string,
                                  checkedIn: bool, now: string)
    requires ValidStore(store)
    ensures ValidStore(UpdateReservationStatus(store, id, status, reason).store)
    ensures ValidStore(UpdateCheckedInStatus(store, id, checkedIn, now).store)
  {
    var a := UpdateReservationStatus(store, id, status, reason).store;
    assert forall i | 0 <= i < |store| :: a[i].id == store[i].id;
    var b := UpdateCheckedInStatus(store, id, checkedIn, now).store;
    assert forall i | 0 <= i < |store| :: b[i].id == store[i].id;
  }

  /** On its own, the status update does not keep "a reason exactly when
      rejected": rejecting without a reason a record that has none leaves a
      rejected record without a reason.  The PATCH route refuses such requests. */
  lemma RejectWithoutReasonLeavesNoReason(store: seq<Reservation>, id: string)
    requires !FreshId(store, id)
    requires store[FindById(store, id).value].rejectionReason == None
    ensures var u := UpdateReservationStatus(store, id, Rejected, "");
      u.result.Some? && u.result.value.status == Rejected && !ReasonConsistent(u.result.value)
  {
  }

  // --------------------------------------------------------------- creation

  /** The fields a caller supplies to `createReservation`. */
  datatype NewReservation = NewReservation(
    name: string,
    email: Option<string>,
    phone: string,
    date: string,
    time: string,
    guests: Option<int>,
    specialRequests: Option<string>)

  datatype Created = Created(reservation: Reservation, store: seq<Reservation>)

  /** The record `createReservation` builds: a falsy email becomes "", the status
      is pending, nothing is rejected or checked in, and the id and creation
      time are the injected ones. */
  function NewRecord(input: NewReservation, id: string, now: string): Reservation {
    Reservation(
      id, input.name, Some(input.email.GetOr("")), input.phone, input.date, input.time,
      input.guests, input.specialRequests, Pending, None, false, None, now)
  }

  /** `createReservation`: saves the new record at the end of the store, or
      refuses it when the schema rejects it (validation runs first) or the id is
      taken.  A successful save keeps a valid store valid. */
  function CreateReservation(store: seq<Reservation>, input: NewReservation, id: string, now: string)
    : (r: Result<Created, SaveError>)
    ensures r.Success? <==> ValidRecord(NewRecord(input, id, now)) && FreshId(store, id)
    ensures r.Failure? ==> (r.error == ValidationError <==> !ValidRecord(NewRecord(input, id, now)))
    ensures r.Success? ==>
      var c := r.value.reservation;
      && r.value.store == store + [c]
      && c.id == id && c.createdAt == now
      && c.status == Pending && c.rejectionReason == None && !c.checkedIn && c.checkedInAt == None
      && c.email == Some(if input.email.Some? && input.email.value != "" then input.email.value else "")
      && c.name == input.name && c.phone == input.phone && c.date == input.date && c.time == input.time
      && c.guests == input.guests && c.specialRequests == input.specialRequests
    ensures r.Success? && ValidStore(store) ==> ValidStore(r.value.store)
    ensures r.Success? && AllReasonConsistent(store) ==> AllReasonConsistent(r.value.store)
  {
    var c := NewRecord(input, id, now);
    if !ValidRecord(c) then Failure(ValidationError)
    else if !FreshId(store, id) then Failure(DuplicateKey)
    else Success(Created(c, store + [c]))
  }
}

=== FILE: menu.dfy ===
/** The menu-item record of lib/types.ts, the constraints of its database
    schema (lib/models/MenuItem.ts), and the menu part of lib/data.ts: the seed
    catalogue, seeding, and the two read queries.  Prices are whole cents. */
module Menu {
  import opened Wrappers
  import opened Text

  datatype Category = Appetizer | Main | Dessert | Beverage | Wine | Beer | Cocktail

  function CategoryName(c: Category): string {
    match c
    case Appetizer => "appetizer"
    case Main => "main"
    case Dessert => "dessert"
    case Beverage => "beverage"
    case Wine => "wine"
    case Beer => "beer"
    case Cocktail => "cocktail"
  }

  /** Reads the category enumeration; `None` for a string outside it. */
  function ParseCategory(s: string): (r: Option<Category>)
    ensures r.Some? ==> CategoryName(r.value) == s
    ensures r.None? ==> forall c: Category :: CategoryName(c) != s
  {
    match s
    case "appetizer" => Some(Appetizer)
    case "main" => Some(Main)
    case "dessert" => Some(Dessert)
    case "beverage" => Some(Beverage)
    case "wine" => Some(Wine)
    case "beer" => Some(Beer)
    case "cocktail" => Some(Cocktail)
    case _ => None
  }

  lemma CategoryNameRoundTrip(c: Category)
    ensures ParseCategory(CategoryName(c)) == Some(c)
  {
  }

  datatype Tag = Vegetarian | Vegan | GlutenFree | Spicy

  function TagName(t: Tag): string {
    match t
    case Vegetarian => "vegetarian"
    case Vegan => "vegan"
    case GlutenFree => "glutenFree"
    case Spicy => "spicy"
  }

  /** Reads the tag enumeration; `None` for a string outside it. */
  function ParseTag(s: string): (r: Option<Tag>)
    ensures r.Some? ==> TagName(r.value) == s
    ensures r.None? ==> forall t: Tag :: TagName(t) != s
  {
    match s
    case "vegetarian" => Some(Vegetarian)
    case "vegan" => Some(Vegan)
    case "glutenFree" => Some(GlutenFree)
    case "spicy" => Some(Spicy)
    case _ => None
  }

  lemma TagNameRoundTrip(t: Tag)
    ensures ParseTag(TagName(t)) == Some(t)
  {
  }

  /** Reads a tag list; `None` when any element is outside the enumeration. */
  function ParseTags(names: seq<string>): (r: Option<seq<Tag>>)
    ensures r.Some? <==> forall i | 0 <= i < |names| :: ParseTag(names[i]).Some?
    ensures r.Some? ==> |r.value| == |names| && forall i | 0 <= i < |names| :: TagName(r.value[i]) == names[i]
    decreases |names|
  {
    if |names| == 0 then Some([])
    else match (ParseTag(names[0]), ParseTags(names[1..]))
      case (Some(t), Some(rest)) => Some([t] + rest)
      case _ => None
  }

  /** A stored menu item; `price` is in cents, `allergens` and `tags` are the
      stored (defaulted) lists. */
  datatype MenuItem = MenuItem(
    id: string,
    name: string,
    description: string,
    price: int,
    category: Category,
    image: Option<string>,
    allergens: seq<string>,
    tags: seq<Tag>,
    available: bool)

  /** A menu item as handed to the database before defaults and validation:
      the enumerations are still strings and the defaulted fields may be absent. */
  datatype MenuDraft = MenuDraft(
    name: string,
    description: string,
    price: int,
    category: string,
    image: Option<string>,
    allergens: Option<seq<string>>,
    tags: Option<seq<string>>,
    available: Option<bool>)

  /** What the schema demands of a draft: the required strings are non-empty
      and the enumerations hold.  The price has no bound. */
  predicate ValidDraft(d: MenuDraft) {
    && d.name != "" && d.description != ""
    && ParseCategory(d.category).Some?
    && (d.tags.Some? ==> ParseTags(d.tags.value).Some?)
  }

  /** The document the schema builds from a draft and an id: defaults applied
      (`available` true, `allergens` and `tags` empty), or a validation error. */
  function BuildMenuItem(d: MenuDraft, id: string): (r: Result<MenuItem, SaveError>)
    ensures r.Success? <==> id != "" && ValidDraft(d)
    ensures r.Success? ==>
      && r.value.id == id && r.value.name == d.name && r.value.description == d.description
      && r.value.price == d.price && CategoryName(r.value.category) == d.category
      && r.value.image == d.image
      && r.value.allergens == d.allergens.GetOr([])
      && |r.value.tags| == |d.tags.GetOr([])|
      && (forall i | 0 <= i < |r.value.tags| :: TagName(r.value.tags[i]) == d.tags.GetOr([])[i])
      && r.value.available == d.available.GetOr(true)
  {
    if id == "" || !ValidDraft(d) then Failure(ValidationError)
    else
      var tags := if d.tags.Some? then ParseTags(d.tags.value).value else [];
      Success(MenuItem(id, d.name, d.description, d.price, ParseCategory(d.category).value,
                       d.image, d.allergens.GetOr([]), tags, d.available.GetOr(true)))
  }

  /** The schema's `unique` index on `id`. */
  predicate UniqueMenuIds(store: seq<MenuItem>) {
    forall i, j | 0 <= i < j < |store| :: store[i].id != store[j].id
  }

  predicate FreshMenuId(store: seq<MenuItem>, id: string) {
    forall i | 0 <= i < |store| :: store[i].id != id
  }

  /** `MenuItemModel.create`: the built document is appended, unless the schema
      refuses the draft or the id is taken. */
  function CreateMenuItem(store: seq<MenuItem>, d: MenuDraft, id: string): (r: Result<seq<MenuItem>, SaveError>)
    ensures r.Success? <==> id != "" && ValidDraft(d) && FreshMenuId(store, id)
    ensures r.Success? ==> r.value == store + [BuildMenuItem(d, id).value]
    ensures r.Success? && UniqueMenuIds(store) ==> UniqueMenuIds(r.value)
  {
    match BuildMenuItem(d, id)
    case Failure(e) => Failure(e)
    case Success(item) => if FreshMenuId(store, id) then Success(store + [item]) else Failure(DuplicateKey)
  }

  /** Whether some item of the store has this name (`findOne({ name })`). */
  predicate HasName(store: seq<MenuItem>, name: string) {
    exists i | 0 <= i < |store| :: store[i].name == name
  }

  // ------------------------------------------------------------------ reads

  /** The items of `store` that satisfy `keep`, in store order. */
  function Filter(store: seq<MenuItem>, keep: MenuItem -> bool): (r: seq<MenuItem>)
    ensures forall x :: x in r <==> x in store && keep(x)
    ensures |r| <= |store|
    decreases |store|
  {
    if |store| == 0 then []
    else (if keep(store[0]) then [store[0]] else []) + Filter(store[1..], keep)
  }

  /** Each kept item occurs in the filtered list as often as in the store, and
      a dropped one not at all. */
  lemma {:induction false} FilterCounts(store: seq<MenuItem>, keep: MenuItem -> bool)
    ensures forall x :: multiset(Filter(store, keep))[x] == if keep(x) then multiset(store)[x] else 0
    decreases |store|
  {
    if |store| > 0 {
      FilterCounts(store[1..], keep);
      assert store == [store[0]] + store[1..];
    }
  }

  /** Filtering a concatenation filters each part and keeps them in order, so
      the kept items come out in store order. */
  lemma {:induction false} FilterConcat(a: seq<MenuItem>, b: seq<MenuItem>, keep: MenuItem -> bool)
    ensures Filter(a + b, keep) == Filter(a, keep) + Filter(b, keep)
    decreases |a|
  {
    if |a| > 0 {
      assert (a + b)[1..] == a[1..] + b;
      FilterConcat(a[1..], b, keep);
    } else {
      assert a + b == b;
    }
  }

  /** `getMenuItems`: the available items, each as often as in the store. */
  function GetMenuItems(store: seq<MenuItem>): (r: seq<MenuItem>)
    ensures forall x :: x in r <==> x in store && x.available
    ensures forall x :: multiset(r)[x] == if x.available then multiset(store)[x] else 0
  {
    FilterCounts(store, (x: MenuItem) => x.available);
    Filter(store, (x: MenuItem) => x.available)
  }

  /** `getMenuItemsByCategory`: the available items of one category, each as
      often as in the store. */
  function GetMenuItemsByCategory(store: seq<MenuItem>, c: Category): (r: seq<MenuItem>)
    ensures forall x :: x in r <==> x in store && x.available && x.category == c
    ensures forall x :: multiset(r)[x] == if x.available && x.category == c then multiset(store)[x] else 0
  {
    FilterCounts(GetMenuItems(store), (x: MenuItem) => x.category == c);
    Filter(GetMenuItems(store), (x: MenuItem) => x.category == c)
  }

  /** Both reads keep store order: reading a concatenated store reads each
      part in turn. */
  lemma MenuReadsKeepOrder(a: seq<MenuItem>, b: seq<MenuItem>, c: Category)
    ensures GetMenuItems(a + b) == GetMenuItems(a) + GetMenuItems(b)
    ensures GetMenuItemsByCategory(a + b, c) == GetMenuItemsByCategory(a, c) + GetMenuItemsByCategory(b, c)
  {
    FilterConcat(a, b, (x: MenuItem) => x.available);
    FilterConcat(GetMenuItems(a), GetMenuItems(b), (x: MenuItem) => x.category == c);
  }

  /** Every available item is listed under exactly one category, so the seven
      category lists together are as long as the whole menu. */
  lemma {:induction false} CategoriesPartitionMenu(store: seq<MenuItem>)
    ensures |GetMenuItems(store)| ==
      |GetMenuItemsByCategory(store, Appetizer)| + |GetMenuItemsByCategory(store, Main)|
      + |GetMenuItemsByCategory(store, Dessert)| + |GetMenuItemsByCategory(store, Beverage)|
      + |GetMenuItemsByCategory(store, Wine)| + |GetMenuItemsByCategory(store, Beer)|
      + |GetMenuItemsByCategory(store, Cocktail)|
    decreases |store|
  {
    if |store| > 0 {
      CategoriesPartitionMenu(store[1..]);
      AvailableStep(store);
      CategoriesStep(store);
    }
  }

  /** The first item adds one to the seven category lists together exactly
      when it is available. */
  lemma CategoriesStep(store: seq<MenuItem>)
    requires |store| > 0
    ensures
      |GetMenuItemsByCategory(store, Appetizer)| + |GetMenuItemsByCategory(store, Main)|
      + |GetMenuItemsByCategory(store, Dessert)| + |GetMenuItemsByCategory(store, Beverage)|
      + |GetMenuItemsByCategory(store, Wine)| + |GetMenuItemsByCategory(store, Beer)|
      + |GetMenuItemsByCategory(store, Cocktail)|
      == (if store[0].available then 1 else 0)
      + |GetMenuItemsByCategory(store[1..], Appetizer)| + |GetMenuItemsByCategory(store[1..], Main)|
      + |GetMenuItemsByCategory(store[1..], Dessert)| + |GetMenuItemsByCategory(store[1..], Beverage)|
      + |GetMenuItemsByCategory(store[1..], Wine)| + |GetMenuItemsByCategory(store[1..], Beer)|
      + |GetMenuItemsByCategory(store[1..], Cocktail)|
  {
    OneCategoryEach(store[0]);
    ByCategoryStep(store, Appetizer);
    ByCategoryStep(store, Main);
    ByCategoryStep(store, Dessert);
    ByCategoryStep(store, Beverage);
    ByCategoryStep(store, Wine);
    ByCategoryStep(store, Beer);
    ByCategoryStep(store, Cocktail);
  }

  /** The first item counts towards the available items when it is available. */
  lemma AvailableStep(store: seq<MenuItem>)
    requires |store| > 0
    ensures |GetMenuItems(store)| == (if store[0].available then 1 else 0) + |GetMenuItems(store[1..])|
  {
  }

  /** 1 when the item is listed under category `c`, otherwise 0. */
  function ListedUnder(x: MenuItem, c: Category): nat {
    if x.available && x.category == c then 1 else 0
  }

  /** An available item is listed under exactly one category. */
  lemma OneCategoryEach(x: MenuItem)
    ensures ListedUnder(x, Appetizer) + ListedUnder(x, Main) + ListedUnder(x, Dessert)
      + ListedUnder(x, Beverage) + ListedUnder(x, Wine) + ListedUnder(x, Beer)
      + ListedUnder(x, Cocktail) == if x.available then 1 else 0
  {
  }

  /** The first item counts towards its own category's list, when available,
      and towards no other. */
  lemma ByCategoryStep(store: seq<MenuItem>, c: Category)
    requires |store| > 0
    ensures |GetMenuItemsByCategory(store, c)| ==
      (if store[0].available && store[0].category == c then 1 else 0) + |GetMenuItemsByCategory(store[1..], c)|
  {
    var g := GetMenuItems(store);
    var g' := GetMenuItems(store[1..]);
    if store[0].available {
      assert g == [store[0]] + g';
      assert g[1..] == g';
    } else {
      assert g == g';
    }
  }

  // --------------------------------------------------------------- seeding

  /** An entry of `initialMenuItems`: a menu item without its id, with the
      category and tags typed as the menu-item record declares them; `tags`
      and `allergens` are `None` where the entry leaves them out. */
  datatype CatalogueEntry = CatalogueEntry(
    name: string,
    description: string,
    price: int,
    category: Category,
    tags: Option<seq<Tag>>,
    allergens: Option<seq<string>>,
    available: bool,
    image: Option<string>)

  /** The address of a catalogue photo: the image host's URL for the photo
      with this id, cropped to 400 by 300. */
  function UnsplashPhoto(id: string): string {
    "https://images.unsplash.com/photo-" + id + "?w=400&h=300&fit=crop"
  }

  /** `initialMenuItems`, the catalogue the empty menu is seeded with, in the
      order of its sections. */
  const InitialMenuItems: seq<CatalogueEntry> :=
    AppetizerEntries + MainCourseEntries + DessertEntries + BeverageEntries
    + WineEntries + BeerEntries + CocktailEntries

  const AppetizerEntries: seq<CatalogueEntry> := [
    CatalogueEntry("Bruschetta Trio",
                   "Three varieties of bruschetta: classic tomato & basil, mushroom & truffle, and goat cheese & honey",
                   1299, Appetizer, Some([Vegetarian]), None, true,
                   Some(UnsplashPhoto("1572441713132-51c75654db73"))),
    CatalogueEntry("Caesar Salad",
                   "Fresh romaine lettuce with parmesan cheese, croutons, and our signature Caesar dressing",
                   1099, Appetizer, Some([Vegetarian]), None, true,
                   Some(UnsplashPhoto("1546793665-c74683f339c1"))),
    CatalogueEntry("Shrimp Cocktail",
                   "Jumbo shrimp served with house-made cocktail sauce and lemon",
                   1599, Appetizer, None, Some(["shellfish"]), true,
                   Some(UnsplashPhoto("1559339352-11d035aa65de")))
  ]

  const MainCourseEntries: seq<CatalogueEntry> := [
    CatalogueEntry("Grilled Salmon",
                   "Atlantic salmon grilled to perfection, served with roasted vegetables and lemon butter sauce",
                   2499, Main, Some([GlutenFree]), None, true,
                   Some(UnsplashPhoto("1467003909585-2f8a72700288"))),
    CatalogueEntry("Ribeye Steak",
                   "12oz prime ribeye, cooked to your preference, with garlic mashed potatoes and seasonal vegetables",
                   3299, Main, None, None, true,
                   Some(UnsplashPhoto("1546833999-b9f581a1996d"))),
    CatalogueEntry("Vegetarian Risotto",
                   "Creamy arborio rice with seasonal vegetables, parmesan, and fresh herbs",
                   1899, Main, Some([Vegetarian, GlutenFree]), None, true,
                   Some(UnsplashPhoto("1534939561126-855b8675edd7"))),
    CatalogueEntry("Chicken Parmesan",
                   "Breaded chicken breast with marinara sauce, mozzarella, and spaghetti",
                   2299, Main, None, None, true,
                   Some(UnsplashPhoto("1562967914-608f82629710"))),
    CatalogueEntry("Spicy Thai Curry",
                   "Aromatic red curry with vegetables and your choice of chicken or tofu, served with jasmine rice",
                   1999, Main, Some([Spicy]), None, true,
                   Some(UnsplashPhoto("1585937421612-70a008356fbe")))
  ]

  const DessertEntries: seq<CatalogueEntry> := [
    CatalogueEntry("Chocolate Lava Cake",
                   "Warm chocolate cake with a molten center, served with vanilla ice cream",
                   999, Dessert, Some([Vegetarian]), None, true,
                   Some(UnsplashPhoto("1606312619070-d48d4e5b6916"))),
    CatalogueEntry("Tiramisu",
                   "Classic Italian dessert with coffee-soaked ladyfingers and mascarpone cream",
                   899, Dessert, Some([Vegetarian]), None, true,
                   Some(UnsplashPhoto("1571877227200-a0d98ea607e9"))),
    CatalogueEntry("Fresh Fruit Platter",
                   "Seasonal fresh fruits with a honey yogurt dip",
                   799, Dessert, Some([Vegetarian, Vegan, GlutenFree]), None, true,
                   Some(UnsplashPhoto("1610832958506-aa56368176cf")))
  ]

  const BeverageEntries: seq<CatalogueEntry> := [
    CatalogueEntry("Fresh Orange Juice",
                   "Freshly squeezed orange juice",
                   499, Beverage, Some([Vegetarian, Vegan, GlutenFree]), None, true,
                   Some(UnsplashPhoto("1600271886742-f049cd451bba"))),
    CatalogueEntry("Iced Tea",
                   "House-made iced tea, sweetened or unsweetened",
                   399, Beverage, Some([Vegetarian, Vegan, GlutenFree]), None, true,
                   Some(UnsplashPhoto("1556679343-c7306c197cbc"))),
    CatalogueEntry("Espresso",
                   "Single or double shot of premium espresso",
                   299, Beverage, Some([Vegetarian, Vegan, GlutenFree]), None, true,
                   Some(UnsplashPhoto("1510591509098-f4fdc6d0ff04")))
  ]

  const WineEntries: seq<CatalogueEntry> := [
    CatalogueEntry("Chardonnay",
                   "California Chardonnay, 2019",
                   1299, Wine, Some([Vegetarian, Vegan, GlutenFree]), None, true,
                   Some(UnsplashPhoto("1510812431401-41d2bd2722f3"))),
    CatalogueEntry("Cabernet Sauvignon",
                   "Napa Valley Cabernet, 2018",
                   1599, Wine, Some([Vegetarian, Vegan, GlutenFree]), None, true,
                   Some(UnsplashPhoto("1506377247727-2a5f3a1a4d69"))),
    CatalogueEntry("Pinot Grigio",
                   "Italian Pinot Grigio, 2020",
                   1199, Wine, Some([Vegetarian, Vegan, GlutenFree]), None, true,
                   Some(UnsplashPhoto("1510812431401-41d2bd2722f3")))
  ]

  const BeerEntries: seq<CatalogueEntry> := [
    CatalogueEntry("Craft IPA",
                   "Local craft IPA, hoppy and refreshing",
                   699, Beer, Some([Vegetarian, Vegan, GlutenFree]), None, true,
                   Some(UnsplashPhoto("1535958637004-8967b8379f98"))),
    CatalogueEntry("Wheat Beer",
                   "German-style wheat beer",
                   599, Beer, Some([Vegetarian, Vegan]), None, true,
                   Some(UnsplashPhoto("1608270586620-248524c67de9")))
  ]

  const CocktailEntries: seq<CatalogueEntry> := [
    CatalogueEntry("Mojito",
                   "White rum, fresh mint, lime, and soda water",
                   1099, Cocktail, Some([Vegetarian, Vegan, GlutenFree]), None, true,
                   Some(UnsplashPhoto("1536935338788-846bb9981813"))),
    CatalogueEntry("Old Fashioned",
                   "Bourbon, sugar, bitters, and orange peel",
                   1299, Cocktail, Some([Vegetarian, Vegan, GlutenFree]), None, true,
                   Some(UnsplashPhoto("1536935338788-846bb9981813"))),
    CatalogueEntry("Margarita",
                   "Tequila, triple sec, and fresh lime juice",
                   1199, Cocktail, Some([Vegetarian, Vegan, GlutenFree]), None, true,
                   Some(UnsplashPhoto("1551538827-9c037cb4f32a")))
  ]

  function TagNames(tags: seq<Tag>): (names: seq<string>)
    ensures |names| == |tags| && forall i | 0 <= i < |tags| :: names[i] == TagName(tags[i])
  {
    seq(|tags|, i requires 0 <= i < |tags| => TagName(tags[i]))
  }

  /** A typed tag list written out as strings reads back as itself. */
  lemma TagNamesRoundTrip(tags: seq<Tag>)
    ensures ParseTags(TagNames(tags)) == Some(tags)
  {
    var names := TagNames(tags);
    forall i | 0 <= i < |names| ensures ParseTag(names[i]).Some? {
      TagNameRoundTrip(tags[i]);
    }
    var r := ParseTags(names).value;
    forall i | 0 <= i < |tags| ensures r[i] == tags[i] {
      TagNameRoundTrip(r[i]);
      TagNameRoundTrip(tags[i]);
    }
    assert |r| == |tags| && r == tags;
  }

  /** A catalogue entry as `insertMany` hands it to the schema: the enumerations
      written out as their strings, `available` always given. */
  function EntryDraft(e: CatalogueEntry): (d: MenuDraft)
    ensures ValidDraft(d) <==> e.name != "" && e.description != ""
  {
    CategoryNameRoundTrip(e.category);
    var tags := if e.tags.Some? then Some(TagNames(e.tags.value)) else None;
    assert tags.Some? ==> ParseTags(tags.value).Some? by {
      if e.tags.Some? { TagNamesRoundTrip(e.tags.value); }
    }
    MenuDraft(e.name, e.description, e.price, CategoryName(e.category), e.image, e.allergens,
              tags, Some(e.available))
  }

  /** A catalogue entry with an id: the entry's fields, the left-out lists empty. */
  function EntryItem(e: CatalogueEntry, id: string): MenuItem {
    MenuItem(id, e.name, e.description, e.price, e.category, e.image,
             e.allergens.GetOr([]), e.tags.GetOr([]), e.available)
  }

  /** The document the schema builds from a catalogue entry carries exactly the
      entry's fields, the left-out lists stored empty. */
  lemma EntryBuildsItem(e: CatalogueEntry, id: string)
    requires id != "" && e.name != "" && e.description != ""
    ensures BuildMenuItem(EntryDraft(e), id) == Success(EntryItem(e, id))
  {
    var d := EntryDraft(e);
    var item := BuildMenuItem(d, id).value;
    CategoryNameRoundTrip(item.category);
    CategoryNameRoundTrip(e.category);
    var tags := e.tags.GetOr([]);
    assert d.tags.GetOr([]) == TagNames(tags);
    forall i | 0 <= i < |tags| ensures item.tags[i] == tags[i] {
      TagNameRoundTrip(item.tags[i]);
      TagNameRoundTrip(tags[i]);
    }
    assert |item.tags| == |tags| && item.tags == tags;
    assert item == EntryItem(e, id);
  }

  /** The id seeding gives the item at `index`: its 1-based position. */
  function SeedId(index: nat): (id: string)
    ensures id != "" && AllDigits(id)
    ensures ParseInt(id, Auto) == Some(index + 1)
  {
    ParseNatToString(index + 1, Auto);
    NatToString(index + 1)
  }

  /** Whether every entry has the schema's required strings. */
  predicate ValidCatalogue(catalogue: seq<CatalogueEntry>) {
    forall i | 0 <= i < |catalogue| :: catalogue[i].name != "" && catalogue[i].description != ""
  }

  /** The documents `insertMany` stores for a catalogue that passes the schema:
      the entry at position `i` with id `SeedId(i)`. */
  function SeededMenu(catalogue: seq<CatalogueEntry>): (r: seq<MenuItem>)
    requires ValidCatalogue(catalogue)
    ensures |r| == |catalogue|
    ensures forall i | 0 <= i < |r| :: BuildMenuItem(EntryDraft(catalogue[i]), SeedId(i)) == Success(r[i])
    ensures UniqueMenuIds(r)
  {
    var r := seq(|catalogue|, i requires 0 <= i < |catalogue| => EntryItem(catalogue[i], SeedId(i)));
    forall i | 0 <= i < |r|
      ensures BuildMenuItem(EntryDraft(catalogue[i]), SeedId(i)) == Success(r[i])
    {
      EntryBuildsItem(catalogue[i], SeedId(i));
    }
    forall i, j | 0 <= i < j < |r| ensures r[i].id != r[j].id {
      assert ParseInt(r[i].id, Auto) != ParseInt(r[j].id, Auto);
    }
    r
  }

  /** A catalogue passes the schema when both of its halves do. */
  lemma ValidCatalogueConcat(a: seq<CatalogueEntry>, b: seq<CatalogueEntry>)
    requires ValidCatalogue(a) && ValidCatalogue(b)
    ensures ValidCatalogue(a + b)
  {
    assert forall i | |a| <= i < |a + b| :: (a + b)[i] == b[i - |a|];
  }

  /** Every catalogue entry passes the schema, section by section. */
  lemma CatalogueValid()
    ensures |InitialMenuItems| == 22
    ensures ValidCatalogue(InitialMenuItems)
  {
    assert ValidCatalogue(AppetizerEntries);
    assert ValidCatalogue(MainCourseEntries);
    assert ValidCatalogue(DessertEntries);
    assert ValidCatalogue(BeverageEntries);
    assert ValidCatalogue(WineEntries);
    assert ValidCatalogue(BeerEntries);
    assert ValidCatalogue(CocktailEntries);
    var c := AppetizerEntries;
    ValidCatalogueConcat(c, MainCourseEntries);
    c := c + MainCourseEntries;
    ValidCatalogueConcat(c, DessertEntries);
    c := c + DessertEntries;
    ValidCatalogueConcat(c, BeverageEntries);
    c := c + BeverageEntries;
    ValidCatalogueConcat(c, WineEntries);
    c := c + WineEntries;
    ValidCatalogueConcat(c, BeerEntries);
    c := c + BeerEntries;
    ValidCatalogueConcat(c, CocktailEntries);
    c := c + CocktailEntries;
    assert c == InitialMenuItems;
  }

  /** `seedMenuItems`: an empty menu gets the catalogue with ids "1", "2", ...
      in catalogue order; a menu with any item is left as it is. */
  function SeedMenuItems(store: seq<MenuItem>): (r: seq<MenuItem>)
    ensures |store| > 0 ==> r == store
    ensures |store| == 0 ==>
      && |r| == |InitialMenuItems|
      && (forall i | 0 <= i < |r| :: BuildMenuItem(EntryDraft(InitialMenuItems[i]), SeedId(i)) == Success(r[i]))
      && (forall i | 0 <= i < |r| :: r[i].id == SeedId(i) && r[i].name == InitialMenuItems[i].name)
    ensures UniqueMenuIds(store) ==> UniqueMenuIds(r)
  {
    if |store| > 0 then store
    else
      CatalogueValid();
      SeededMenu(InitialMenuItems)
  }
}

=== FILE: menu_ids.dfy ===
/** The two ways the code picks the id of a new menu item: the maintenance
    script takes the largest id that reads as a number (scripts/update-appetizers.ts),
    the add-appetizers endpoint takes the id that sorts last as a string
    (app/api/menu/add-appetizers/route.ts). */
module MenuIds {
  import opened Wrappers
  import opened Text
  import opened Menu

  function Ids(store: seq<MenuItem>): (ids: seq<string>)
    ensures |ids| == |store| && forall i | 0 <= i < |store| :: ids[i] == store[i].id
  {
    seq(|store|, i requires 0 <= i < |store| => store[i].id)
  }

  /** What the script reads from an id: nothing for the empty id, otherwise
      `parseInt(id)` (radix chosen from the prefix), `None` standing for NaN. */
  function ParsedId(id: string): Option<int> {
    if id == "" then None else ParseInt(id, Auto)
  }

  // ------------------------------------------------------- numeric maximum

  /** What the script reads from each item's id, in store order. */
  function ParsedIds(store: seq<MenuItem>): (ps: seq<Option<int>>)
    ensures |ps| == |store| && forall i | 0 <= i < |store| :: ps[i] == ParsedId(store[i].id)
  {
    seq(|store|, i requires 0 <= i < |store| => ParsedId(store[i].id))
  }

  /** The script's scan: starting from `acc`, keep the larger of the running
      maximum and each number read (NaN is skipped).  The result bounds every
      number read and is either the start or one of them. */
  function MaxNumericId(ps: seq<Option<int>>, acc: nat): (m: nat)
    ensures acc <= m
    ensures forall i | 0 <= i < |ps| :: ps[i].Some? ==> ps[i].value <= m
    ensures m == acc || exists i | 0 <= i < |ps| :: ps[i] == Some(m)
    decreases |ps|
  {
    if |ps| == 0 then acc
    else
      var next: nat := if ps[0].Some? && ps[0].value > acc then ps[0].value else acc;
      var m := MaxNumericId(ps[1..], next);
      assert forall i | 1 <= i < |ps| :: ps[1..][i - 1] == ps[i];
      assert m != next ==> exists i | 0 <= i < |ps[1..]| :: ps[1..][i] == Some(m);
      m
  }

  /** The script's next id: one more than the largest numeric id (0 when there
      is none), rendered in decimal.  It reads back as that number, so it is
      larger than every id that reads as a number and equals no existing id. */
  function NextNumericId(store: seq<MenuItem>): (id: string)
    ensures ParsedId(id) == Some(MaxNumericId(ParsedIds(store), 0) + 1)
    ensures forall i | 0 <= i < |store| :: ParsedId(store[i].id).Some? ==> ParsedId(store[i].id).value < ParsedId(id).value
    ensures FreshMenuId(store, id)
  {
    var m := MaxNumericId(ParsedIds(store), 0);
    ParseNatToString(m + 1, Auto);
    NatToString(m + 1)
  }

  /** An empty menu gets the id "1". */
  lemma EmptyMenuGivesOne()
    ensures NextNumericId([]) == "1"
  {
    assert NatToString(1) == [DigitChar(1)];
  }

  // ------------------------------------------------- string-sorted maximum

  /** The id `findOne().sort({ id: -1 })` returns: one that no other id sorts
      after, `None` for an empty collection. */
  function StrMax(ids: seq<string>): (r: Option<string>)
    ensures r.None? <==> |ids| == 0
    ensures r.Some? ==> r.value in ids && forall i | 0 <= i < |ids| :: !StrLess(r.value, ids[i])
    decreases |ids|
  {
    if |ids| == 0 then None
    else match StrMax(ids[1..])
      case None =>
        StrLessIrreflexive(ids[0]);
        Some(ids[0])
      case Some(rest) =>
        if StrLess(rest, ids[0]) then
          assert forall i | 1 <= i < |ids| :: ids[i] == ids[1..][i - 1];
          forall i | 1 <= i < |ids| ensures !StrLess(ids[0], ids[i]) {
            if StrLess(ids[0], ids[i]) { StrLessTransitive(rest, ids[0], ids[i]); }
          }
          StrLessIrreflexive(ids[0]);
          Some(ids[0])
        else
          assert forall i | 1 <= i < |ids| :: ids[i] == ids[1..][i - 1];
          Some(rest)
  }

  /** The endpoint's next id, as written: "1" for an empty collection or an
      empty last id, otherwise `parseInt` of the last id under the string sort,
      plus one, rendered ("NaN" when it does not read as a number). */
  function NextIdByStringSort(store: seq<MenuItem>): (id: string)
    ensures |store| == 0 ==> id == "1"
    ensures id != ""
  {
    match StrMax(Ids(store))
    case None => "1"
    case Some(last) =>
      if last == "" then "1"
      else match ParseInt(last, Auto)
        case None => "NaN"
        case Some(v) => IntToString(v + 1)
  }

  /** When every id is a digit string of one common width, the string sort
      agrees with numeric order and the endpoint's next id is fresh. */
  lemma StringSortFreshForEqualWidth(store: seq<MenuItem>, width: nat)
    requires forall i | 0 <= i < |store| :: AllDigits(store[i].id) && |store[i].id| == width
    ensures FreshMenuId(store, NextIdByStringSort(store))
  {
    var ids := Ids(store);
    if |store| > 0 {
      var last := StrMax(ids).value;
      if last != "" {
        ParseAllDigits(last, Auto);
        var v := DigitsValue(last);
        var next := NextIdByStringSort(store);
        assert next == NatToString(v + 1);
        forall i | 0 <= i < |store| ensures store[i].id != next {
          if store[i].id == next {
            DigitsOrder(last, store[i].id);
          }
        }
      }
    }
  }

  /** Among "1" to "89", every number but 9 renders to a string that sorts
      before "9": a one-digit string below 9, or a two-digit string whose first
      digit is below 9. */
  lemma SortsBeforeNine(k: nat)
    requires 1 <= k < 90 && k != 9
    ensures StrLess(NatToString(k), "9")
  {
    var s := NatToString(k);
    if k < 10 {
      assert s == [DigitChar(k)];
    } else {
      assert s == NatToString(k / 10) + [DigitChar(k % 10)];
      assert NatToString(k / 10) == [DigitChar(k / 10)];
      assert s[0] == DigitChar(k / 10);
    }
    assert s[0] < '9';
  }

  /** Ids "1", "2", ... up to a count between 9 and 89 sort last at "9". */
  lemma NumberedIdsSortLastAtNine(ids: seq<string>)
    requires 9 <= |ids| < 90
    requires forall i | 0 <= i < |ids| :: ids[i] == NatToString(i + 1)
    ensures StrMax(ids) == Some("9")
  {
    assert NatToString(9) == "9";
    assert ids[8] == "9";
    var last := StrMax(ids).value;
    assert !StrLess(last, "9");
    var j :| 0 <= j < |ids| && ids[j] == last;
    if j != 8 {
      SortsBeforeNine(j + 1);
      assert false;
    }
  }

  /** In a menu whose ids are "1", "2", ... up to a count between 10 and 89,
      the endpoint picks "10", which the tenth item already holds. */
  lemma NumberedMenuNextIdTaken(store: seq<MenuItem>)
    requires 10 <= |store| < 90
    requires forall i | 0 <= i < |store| :: store[i].id == SeedId(i)
    ensures NextIdByStringSort(store) == "10"
    ensures !FreshMenuId(store, "10")
  {
    assert StrMax(Ids(store)) == Some("9") by {
      var ids := Ids(store);
      assert forall i | 0 <= i < |ids| :: ids[i] == NatToString(i + 1);
      NumberedIdsSortLastAtNine(ids);
    }
    NextAfterNine(store);
    assert store[9].id == "10" by {
      NineThenTen();
    }
  }

  /** When "9" sorts last, the endpoint picks "10". */
  lemma NextAfterNine(store: seq<MenuItem>)
    requires StrMax(Ids(store)) == Some("9")
    ensures NextIdByStringSort(store) == "10"
  {
    NineThenTen();
  }

  /** "9" reads as 9, and 10 renders as "10". */
  lemma NineThenTen()
    ensures ParseInt("9", Auto) == Some(9)
    ensures IntToString(9 + 1) == "10"
  {
    var nine := NatToString(9);
    assert nine == [DigitChar(9)];
    assert DigitChar(9) == '9';
    ParseNatToString(9, Auto);
    var ten := NatToString(10);
    assert ten == NatToString(1) + [DigitChar(0)];
    assert NatToString(1) == [DigitChar(1)];
    assert DigitChar(1) == '1' && DigitChar(0) == '0';
  }

  /** The seeded menu is such a menu: right after seeding, the endpoint's next
      id is "10" and it is already taken. */
  lemma SeededMenuNextIdTaken()
    ensures NextIdByStringSort(SeedMenuItems([])) == "10"
    ensures !FreshMenuId(SeedMenuItems([]), "10")
  {
    NumberedMenuNextIdTaken(SeedMenuItems([]));
  }
}

=== FILE: reservations.dfy ===
/** The reservation record of lib/types.ts and the constraints its database
    schema (lib/models/Reservation.ts) places on stored records. */
module Reservations {
  import opened Wrappers

  datatype Status = Pending | Confirmed | Rejected

  function StatusName(s: Status): string {
    match s
    case Pending => "pending"
    case Confirmed => "confirmed"
    case Rejected => "rejected"
  }

  /** Reads the status enumeration `['pending', 'confirmed', 'rejected']`. */
  function ParseStatus(s: string): (r: Option<Status>)
    ensures r.Some? <==> s == "pending" || s == "confirmed" || s == "rejected"
    ensures r.Some? ==> StatusName(r.value) == s
  {
    if s == "pending" then Some(Pending)
    else if s == "confirmed" then Some(Confirmed)
    else if s == "rejected" then Some(Rejected)
    else None
  }

  /** Every status is read back from its own name. */
  lemma StatusNameRoundTrip(s: Status)
    ensures ParseStatus(StatusName(s)) == Some(s)
  {
  }

  /** The status a record gets when none is given. */
  const DefaultStatus := Pending

  /** A stored reservation.  Optional fields are `Option`s; `checkedIn` is false
      when the field is absent, which is how the query `checkedIn != true` reads
      a missing field. */
  datatype Reservation = Reservation(
    id: string,
    name: string,
    email: Option<string>,
    phone: string,
    date: string,
    time: string,
    guests: Option<int>,
    specialRequests: Option<string>,
    status: Status,
    rejectionReason: Option<string>,
    checkedIn: bool,
    checkedInAt: Option<string>,
    createdAt: string)

  /** Pending and confirmed reservations hold seats; rejected ones do not. */
  predicate IsActive(r: Reservation) {
    r.status == Pending || r.status == Confirmed
  }

  /** `res.guests || 0`: the seats a record takes, a missing count being 0. */
  function SeatsTaken(r: Reservation): int {
    r.guests.GetOr(0)
  }

  const MinGuests := 1
  const MaxGuests := 20

  /** What the schema demands of a stored record: the required string fields
      are non-empty (a required string rejects ""), and `guests` is present and
      within [MinGuests, MaxGuests].  The status enumeration is enforced by the
      `Status` type. */
  predicate ValidRecord(r: Reservation) {
    && r.id != "" && r.name != "" && r.phone != "" && r.date != "" && r.time != ""
    && r.createdAt != ""
    && r.guests.Some? && MinGuests <= r.guests.value <= MaxGuests
  }

  /** The schema's `unique` index on `id`. */
  predicate UniqueIds(store: seq<Reservation>) {
    forall i, j | 0 <= i < j < |store| :: store[i].id != store[j].id
  }

  predicate ValidStore(store: seq<Reservation>) {
    && (forall i | 0 <= i < |store| :: ValidRecord(store[i]))
    && UniqueIds(store)
  }

  /** A record carries a rejection reason exactly when it is rejected.  The
      PATCH handler's checks (app/api/reservations/route.ts:125-130) keep this
      true; the ledger's status update alone does not. */
  predicate ReasonConsistent(r: Reservation) {
    r.rejectionReason.Some? <==> r.status == Rejected
  }

  predicate AllReasonConsistent(store: seq<Reservation>) {
    forall i | 0 <= i < |store| :: ReasonConsistent(store[i])
  }

  /** The id is not used by any record of the store. */
  predicate FreshId(store: seq<Reservation>, id: string) {
    forall i | 0 <= i < |store| :: store[i].id != id
  }
}

=== FILE: reservations_route.dfy ===
/** The decision logic of the reservation API (app/api/reservations/route.ts):
    POST creates a reservation after three checks, PATCH changes a check-in flag
    or a status.  Each handler is a function from the request, the store and the
    answers of the collaborators it calls to the response and the new store. */
module ReservationsRoute {
  import opened Wrappers
  import opened Text
  import opened Calendar
  import opened Reservations
  import opened Ledger

  /** The `guests` field of a JSON body: absent (or null), a number, or a string
      (the booking form sends a string). */
  datatype GuestsField = NoGuests | GuestsNumber(n: int) | GuestsText(s: string)

  /** JavaScript truthiness of the `guests` field. */
  predicate GuestsTruthy(g: GuestsField) {
    match g
    case NoGuests => false
    case GuestsNumber(n) => n != 0
    case GuestsText(s) => s != ""
  }

  /** `parseInt(guests, 10)`; `None` stands for NaN. */
  function RequestedGuests(g: GuestsField): Option<int> {
    match g
    case NoGuests => None
    case GuestsNumber(n) => Some(n)
    case GuestsText(s) => ParseInt(s, Decimal)
  }

  /** A POST body; a missing string field is "". The body's `email` is ignored
      by the handler and so is not part of the model. */
  datatype PostRequest = PostRequest(
    name: string, phone: string, date: string, time: string,
    guests: GuestsField, specialRequests: string)

  /** A PATCH body; a missing string field is "", and `checkedIn` is `None`
      unless the field is a boolean. */
  datatype PatchRequest = PatchRequest(
    id: string, status: string, rejectionReason: string, checkedIn: Option<bool>)

  /** What `checkAvailabilityForDate(date, guests)` answers.  Its body is not
      part of the model, so handlers take it as a parameter. */
  datatype AvailabilityAnswer = AvailabilityAnswer(available: bool, availableSeats: int)

  /** What the SMS provider call did: sent, not sent, or threw with a message. */
  datatype SmsOutcome = SmsSent | SmsNotSent | SmsThrew(message: string)

  datatype Body =
    | ErrorBody(error: string)
    | CapacityBody(error: string, availableSeats: int, requestedGuests: Option<int>)
    | ReservationBody(reservation: Reservation)
    | PatchedBody(reservation: Reservation, smsStatus: string, smsError: Option<string>)

  datatype Response = Response(code: int, body: Body)

  /** A handler's response and the store it leaves. */
  datatype Outcome = Outcome(response: Response, store: seq<Reservation>)

  const MissingFields := "Missing required fields"
  const PastDate := "Cannot create reservation for a past date"
  const NotEnoughSeats := "Not enough available seats"
  const CreateFailed := "Failed to create reservation"
  const MissingId := "Missing reservation ID"
  const NotFound := "Reservation not found"
  const InvalidStatus := "Invalid status"
  const ReasonRequired := "Rejection reason is required when rejecting a reservation"

  predicate HasRequiredFields(req: PostRequest) {
    req.name != "" && req.phone != "" && req.date != "" && req.time != "" && GuestsTruthy(req.guests)
  }

  /** The record the POST handler asks `createReservation` for. */
  function PostInput(req: PostRequest): NewReservation {
    NewReservation(req.name, Some(""), req.phone, req.date, req.time,
                   RequestedGuests(req.guests), Some(req.specialRequests))
  }

  /** POST /api/reservations.  The checks run in order: a falsy required field
      (a guest count of 0 included), then a date before today, then the
      availability answer for the trimmed date; each refusal is a 400 that leaves
      the store alone, the capacity one echoing the seats left and the guests
      asked for.  Then the record is saved: a 201 with a pending reservation
      whose email is "" and whose special requests default to "", or a 500 when
      the database refuses it. */
  function Post(store: seq<Reservation>, req: PostRequest, clock: Clock,
                checkAvailabilityForDate: (string, Option<int>) -> AvailabilityAnswer,
                newId: string): (o: Outcome)
    requires ValidClock(clock)
    ensures !HasRequiredFields(req) ==> o == Outcome(Response(400, ErrorBody(MissingFields)), store)
    ensures HasRequiredFields(req) && IsBeforeToday(req.date, clock.today) ==>
      o == Outcome(Response(400, ErrorBody(PastDate)), store)
    ensures HasRequiredFields(req) && !IsBeforeToday(req.date, clock.today) ==>
      var answer := checkAvailabilityForDate(Trim(req.date), RequestedGuests(req.guests));
      !answer.available ==>
        o == Outcome(Response(400, CapacityBody(NotEnoughSeats, answer.availableSeats, RequestedGuests(req.guests))), store)
    ensures o.response.code == 201 <==>
      && HasRequiredFields(req) && !IsBeforeToday(req.date, clock.today)
      && checkAvailabilityForDate(Trim(req.date), RequestedGuests(req.guests)).available
      && ValidRecord(NewRecord(PostInput(req), newId, clock.stamp)) && FreshId(store, newId)
    ensures o.response.code == 201 ==>
      && o.response.body.ReservationBody?
      && var r := o.response.body.reservation;
      && o.store == store + [r]
      && r.status == Pending && r.email == Some("") && r.specialRequests == Some(req.specialRequests)
      && r.date == req.date && r.guests == RequestedGuests(req.guests)
    ensures o.response.code != 201 ==> o.store == store
    ensures
      && HasRequiredFields(req) && !IsBeforeToday(req.date, clock.today)
      && checkAvailabilityForDate(Trim(req.date), RequestedGuests(req.guests)).available
      && !(ValidRecord(NewRecord(PostInput(req), newId, clock.stamp)) && FreshId(store, newId))
      ==> o == Outcome(Response(500, ErrorBody(CreateFailed)), store)
  {
    if !HasRequiredFields(req) then Outcome(Response(400, ErrorBody(MissingFields)), store)
    else if IsBeforeToday(req.date, clock.today) then Outcome(Response(400, ErrorBody(PastDate)), store)
    else
      var requested := RequestedGuests(req.guests);
      var answer := checkAvailabilityForDate(Trim(req.date), requested);
      if !answer.available then
        Outcome(Response(400, CapacityBody(NotEnoughSeats, answer.availableSeats, requested)), store)
      else
        match CreateReservation(store, PostInput(req), newId, clock.stamp)
        case Failure(_) => Outcome(Response(500, ErrorBody(CreateFailed)), store)
        case Success(created) => Outcome(Response(201, ReservationBody(created.reservation)), created.store)
  }

  /** The `_smsStatus` and `_smsError` fields: an SMS is attempted only for
      confirmed and rejected; a throw is reported with its message, or "Unknown
      error" when the message is empty. */
  function SmsFields(status: Status, sms: SmsOutcome): (f: (string, Option<string>))
    ensures f.0 == "sent" <==> status != Pending && sms == SmsSent
    ensures f.0 == "sent" || f.0 == "not_sent"
    ensures f.1.Some? <==> status != Pending && sms.SmsThrew?
    ensures f.1.Some? ==> f.1.value != ""
  {
    var attempted := status == Confirmed || status == Rejected;
    var sent := attempted && sms == SmsSent;
    var error := if attempted && sms.SmsThrew? then Some(if sms.message == "" then "Unknown error" else sms.message) else None;
    (if sent then "sent" else "not_sent", error)
  }

  /** PATCH /api/reservations.  Without an id: 400.  A boolean `checkedIn` takes
      the check-in path and nothing else in the body matters.  Otherwise a
      missing status, a status outside the enumeration and a rejection without a
      reason are each a 400 that leaves the store alone; an unknown id is a 404;
      and a known one gets the status update, the SMS outcome only choosing the
      diagnostic fields as `SmsFields` reports them. */
  function Patch(store: seq<Reservation>, req: PatchRequest, sms: SmsOutcome, clock: Clock): (o: Outcome)
    ensures req.id == "" ==> o == Outcome(Response(400, ErrorBody(MissingId)), store)
    ensures req.id != "" && req.checkedIn.Some? ==>
      var u := UpdateCheckedInStatus(store, req.id, req.checkedIn.value, clock.stamp);
      && o.store == u.store
      && (u.result.None? ==> o.response == Response(404, ErrorBody(NotFound)))
      && (u.result.Some? ==> o.response == Response(200, ReservationBody(u.result.value)))
    ensures req.id != "" && req.checkedIn.None? && ParseStatus(req.status).None? ==>
      o == Outcome(Response(400, ErrorBody(if req.status == "" then MissingFields else InvalidStatus)), store)
    ensures req.id != "" && req.checkedIn.None? && req.status == "rejected" && req.rejectionReason == "" ==>
      o == Outcome(Response(400, ErrorBody(ReasonRequired)), store)
    ensures req.id != "" && req.checkedIn.None? && FreshId(store, req.id) ==>
      o.store == store && o.response.code in {400, 404}
    ensures req.id != "" && req.checkedIn.None? && ParseStatus(req.status).Some?
            && !(ParseStatus(req.status).value == Rejected && req.rejectionReason == "")
            && FreshId(store, req.id) ==>
      o == Outcome(Response(404, ErrorBody(NotFound)), store)
    ensures o.response.code == 200 && req.checkedIn.None? ==>
      && ParseStatus(req.status).Some?
      && var st := ParseStatus(req.status).value;
      && !(st == Rejected && req.rejectionReason == "")
      && var u := UpdateReservationStatus(store, req.id, st, req.rejectionReason);
      && u.result.Some? && o.store == u.store
      && o.response.body.PatchedBody? && o.response.body.reservation == u.result.value
      && (o.response.body.smsStatus, o.response.body.smsError) == SmsFields(st, sms)
  {
    if req.id == "" then Outcome(Response(400, ErrorBody(MissingId)), store)
    else if req.checkedIn.Some? then
      var u := UpdateCheckedInStatus(store, req.id, req.checkedIn.value, clock.stamp);
      match u.result
      case None => Outcome(Response(404, ErrorBody(NotFound)), u.store)
      case Some(r) => Outcome(Response(200, ReservationBody(r)), u.store)
    else if req.status == "" then Outcome(Response(400, ErrorBody(MissingFields)), store)
    else match ParseStatus(req.status)
      case None => Outcome(Response(400, ErrorBody(InvalidStatus)), store)
      case Some(st) =>
        if st == Rejected && req.rejectionReason == "" then
          Outcome(Response(400, ErrorBody(ReasonRequired)), store)
        else
          var u := UpdateReservationStatus(store, req.id, st, req.rejectionReason);
          match u.result
          case None => Outcome(Response(404, ErrorBody(NotFound)), u.store)
          case Some(r) =>
            var fields := SmsFields(st, sms);
            Outcome(Response(200, PatchedBody(r, fields.0, fields.1)), u.store)
  }

  // ------------------------------------------------------------- properties

  /** The SMS outcome never changes the store, the response code or the
      reservation returned; it only changes the diagnostic fields. */
  lemma SmsOnlyChangesDiagnostics(store: seq<Reservation>, req: PatchRequest, a: SmsOutcome, b: SmsOutcome, clock: Clock)
    ensures Patch(store, req, a, clock).store == Patch(store, req, b, clock).store
    ensures Patch(store, req, a, clock).response.code == Patch(store, req, b, clock).response.code
    ensures Patch(store, req, a, clock).response.body.PatchedBody? ==>
      && Patch(store, req, b, clock).response.body.PatchedBody?
      && Patch(store, req, a, clock).response.body.reservation == Patch(store, req, b, clock).response.body.reservation
  {
  }

  /** With a boolean `checkedIn`, the status and reason in the body are ignored. */
  lemma CheckInIgnoresStatus(store: seq<Reservation>, req: PatchRequest, status: string, reason: string,
                             sms: SmsOutcome, clock: Clock)
    requires req.checkedIn.Some?
    ensures Patch(store, req, sms, clock) == Patch(store, req.(status := status, rejectionReason := reason), sms, clock)
  {
  }

  /** Whatever the request and the collaborators answer, POST and PATCH keep the
      store valid: unique ids and records the schema accepts. */
  lemma HandlersPreserveValidStore(store: seq<Reservation>, post: PostRequest, patch: PatchRequest, clock: Clock,
                                   checkAvailabilityForDate: (string, Option<int>) -> AvailabilityAnswer,
                                   newId: string, sms: SmsOutcome)
    requires ValidClock(clock) && ValidStore(store)
    ensures ValidStore(Post(store, post, clock, checkAvailabilityForDate, newId).store)
    ensures ValidStore(Patch(store, patch, sms, clock).store)
  {
    if patch.id != "" && patch.checkedIn.None? {
      match ParseStatus(patch.status)
      case None =>
      case Some(st) => UpdatesPreserveValidStore(store, patch.id, st, patch.rejectionReason, false, clock.stamp);
    } else if patch.id != "" {
      UpdatesPreserveValidStore(store, patch.id, Pending, "", patch.checkedIn.value, clock.stamp);
    }
  }

  /** Whatever the request and the collaborators answer, POST and PATCH keep
      "a rejection reason exactly when rejected", which the status update alone
      does not (`Ledger.RejectWithoutReasonLeavesNoReason`). */
  lemma HandlersPreserveReasons(store: seq<Reservation>, post: PostRequest, patch: PatchRequest, clock: Clock,
                                checkAvailabilityForDate: (string, Option<int>) -> AvailabilityAnswer,
                                newId: string, sms: SmsOutcome)
    requires ValidClock(clock) && AllReasonConsistent(store)
    ensures AllReasonConsistent(Post(store, post, clock, checkAvailabilityForDate, newId).store)
    ensures AllReasonConsistent(Patch(store, patch, sms, clock).store)
  {
    var o := Patch(store, patch, sms, clock);
    forall i | 0 <= i < |o.store| ensures ReasonConsistent(o.store[i]) {
      if patch.id != "" && patch.checkedIn.None? && ParseStatus(patch.status).Some? && !FreshId(store, patch.id) {
        var k := FindById(store, patch.id).value;
        if i == k {
          assert ReasonConsistent(store[k]);
        }
      }
    }
  }

  /** A guest count of "0" passes the presence check (a non-empty string is
      truthy) but not the schema, so when the availability answer lets it through
      the save fails and the handler answers 500, not 400. */
  lemma ZeroGuestsAsTextFailsOnSave(store: seq<Reservation>, req: PostRequest, clock: Clock,
                                    checkAvailabilityForDate: (string, Option<int>) -> AvailabilityAnswer,
                                    newId: string)
    requires ValidClock(clock) && req.guests == GuestsText("0")
    requires req.name != "" && req.phone != "" && req.date != "" && req.time != ""
    requires !IsBeforeToday(req.date, clock.today)
    requires checkAvailabilityForDate(Trim(req.date), Some(0)).available
    ensures Post(store, req, clock, checkAvailabilityForDate, newId).response == Response(500, ErrorBody(CreateFailed))
  {
    assert "0" == NatToString(0);
    ParseNatToString(0, Decimal);
  }

  /** A full house: with one confirmed reservation of 70 guests for today and
      the availability answer computed by the ledger on that store, a request
      for one more guest today is refused with 0 seats left and nothing saved. */
  lemma FullHouseRefusesOneMore(clock: Clock, booked: Reservation, req: PostRequest, newId: string)
    requires ValidClock(clock)
    requires booked.date == clock.today && booked.status == Confirmed && booked.guests == Some(70) && booked.checkedIn
    requires req.date == clock.today && req.guests == GuestsNumber(1)
    requires req.name != "" && req.phone != "" && req.time != ""
    ensures
      var ledger := (date: string, guests: Option<int>) =>
        var c := CheckAvailability([booked], clock, guests.GetOr(0));
        AvailabilityAnswer(c.available, c.availableSeats);
      Post([booked], req, clock, ledger, newId)
        == Outcome(Response(400, CapacityBody(NotEnoughSeats, 0, Some(1))), [booked])
  {
    assert HeldSeats([booked], clock) == 70 by {
      assert !DueForExpiry(booked, clock);
      assert StillHeld(clock)(booked) == 70;
      assert [booked][1..] == [];
      assert SumOver([booked], StillHeld(clock)) == StillHeld(clock)(booked) + SumOver([], StillHeld(clock));
    }
    assert !IsBeforeToday(req.date, clock.today);
  }
}

=== FILE: text.dfy ===
/** Strings as the JavaScript runtime treats them: decimal digits, whitespace and
    `trim`, the `<` comparison on strings, `parseInt` and the rendering of integers
    with `toString`.  Characters are compared by code point. */
module Text {
  import opened Wrappers

  // ---------------------------------------------------------------- digits

  predicate IsDigit(c: char) {
    '0' <= c <= '9'
  }

  function DigitValue(c: char): nat
    requires IsDigit(c)
  {
    (c as int) - ('0' as int)
  }

  function DigitChar(d: nat): (c: char)
    requires d < 10
    ensures IsDigit(c) && DigitValue(c) == d
  {
    (('0' as int) + d) as char
  }

  predicate AllDigits(s: string) {
    forall i | 0 <= i < |s| :: IsDigit(s[i])
  }

  function Pow10(k: nat): (p: nat)
    ensures p >= 1
  {
    if k == 0 then 1 else 10 * Pow10(k - 1)
  }

  /** The value of a string of decimal digits, most significant digit first;
      it is below 10 to the power of the string's length.  Appending a digit
      shifts the value of the rest by one decimal place. */
  function DigitsValue(s: string): (v: nat)
    requires AllDigits(s)
    ensures v < Pow10(|s|)
    decreases |s|
  {
    if |s| == 0 then 0
    else DigitsValue(s[..|s| - 1]) * 10 + DigitValue(s[|s| - 1])
  }

  lemma DigitsValueSnoc(s: string, c: char)
    requires AllDigits(s) && IsDigit(c)
    ensures AllDigits(s + [c])
    ensures DigitsValue(s + [c]) == DigitsValue(s) * 10 + DigitValue(c)
  {
    assert (s + [c])[..|s|] == s;
  }

  // ----------------------------------------------------- rendering integers

  /** `n.toString()` for a non-negative integer: decimal, no leading zeros. */
  function NatToString(n: nat): (s: string)
    ensures |s| >= 1 && AllDigits(s)
    ensures DigitsValue(s) == n
    ensures s[0] == '0' ==> n == 0
    decreases n
  {
    if n < 10 then [DigitChar(n)]
    else
      var prefix := NatToString(n / 10);
      DigitsValueSnoc(prefix, DigitChar(n % 10));
      prefix + [DigitChar(n % 10)]
  }

  /** `i.toString()` for any integer. */
  function IntToString(i: int): (s: string)
    ensures |s| >= 1
    ensures i >= 0 ==> s == NatToString(i)
    ensures i < 0 ==> s == "-" + NatToString(-i)
  {
    if i < 0 then "-" + NatToString(-i) else NatToString(i)
  }

  // -------------------------------------------------------------- whitespace

  /** The characters JavaScript's `trim` and `parseInt` skip: WhiteSpace and
      LineTerminator of the ECMAScript grammar. */
  predicate IsJsSpace(c: char) {
    || c == ' ' || '\t' <= c <= '\r'
    || c == '\U{00A0}' || c == '\U{1680}' || '\U{2000}' <= c <= '\U{200A}'
    || c == '\U{2028}' || c == '\U{2029}' || c == '\U{202F}' || c == '\U{205F}'
    || c == '\U{3000}' || c == '\U{FEFF}'
  }

  /** `s.trimStart()`: drops the leading whitespace and nothing else. */
  function TrimStart(s: string): (r: string)
    ensures |r| <= |s| && r == s[|s| - |r|..]
    ensures forall i | 0 <= i < |s| - |r| :: IsJsSpace(s[i])
    ensures |r| > 0 ==> !IsJsSpace(r[0])
    decreases |s|
  {
    if |s| > 0 && IsJsSpace(s[0]) then TrimStart(s[1..]) else s
  }

  /** `s.trimEnd()`: drops the trailing whitespace and nothing else. */
  function TrimEnd(s: string): (r: string)
    ensures |r| <= |s| && r == s[..|r|]
    ensures forall i | |r| <= i < |s| :: IsJsSpace(s[i])
    ensures |r| > 0 ==> !IsJsSpace(r[|r| - 1])
    decreases |s|
  {
    if |s| > 0 && IsJsSpace(s[|s| - 1]) then TrimEnd(s[..|s| - 1]) else s
  }

  /** The number of whitespace characters `trimStart` removes. */
  function LeadingSpace(s: string): (n: nat)
    ensures n <= |s|
  {
    |s| - |TrimStart(s)|
  }

  /** `s.trim()`: the slice of `s` left after removing the leading and the
      trailing whitespace; it neither starts nor ends with whitespace. */
  function Trim(s: string): (r: string)
    ensures |r| > 0 ==> !IsJsSpace(r[0]) && !IsJsSpace(r[|r| - 1])
    ensures LeadingSpace(s) + |r| <= |s|
    ensures r == s[LeadingSpace(s)..LeadingSpace(s) + |r|]
    ensures forall k | 0 <= k < LeadingSpace(s) :: IsJsSpace(s[k])
    ensures forall k | LeadingSpace(s) + |r| <= k < |s| :: IsJsSpace(s[k])
  {
    var t := TrimStart(s);
    var r := TrimEnd(t);
    SuffixPrefix(s, |s| - |t|, t, r);
    r
  }

  /** A prefix `r` of the suffix `t` of `s` starting at `i` is the slice of `s`
      from `i`, and what `t` has after `r` is what `s` has after that slice. */
  lemma SuffixPrefix(s: string, i: nat, t: string, r: string)
    requires i <= |s| && t == s[i..] && |r| <= |t| && r == t[..|r|]
    requires forall j | |r| <= j < |t| :: IsJsSpace(t[j])
    ensures i + |r| <= |s| && r == s[i..i + |r|]
    ensures forall k | i + |r| <= k < |s| :: IsJsSpace(s[k])
  {
    forall k | i + |r| <= k < |s| ensures IsJsSpace(s[k]) {
      assert t[k - i] == s[k];
    }
  }

  /** Trimming a trimmed string changes nothing. */
  lemma TrimIdempotent(s: string)
    ensures Trim(Trim(s)) == Trim(s)
  {
    var r := Trim(s);
    if |r| > 0 {
      assert TrimStart(r) == r;
      assert TrimEnd(r) == r;
    }
  }

  // ----------------------------------------------------- string comparison

  /** The `a < b` comparison on strings, characters compared by code point: the
      first differing character decides, and a proper prefix is smaller.
      JavaScript compares UTF-16 code units, which orders the same way inside
      the Basic Multilingual Plane. */
  predicate StrLess(a: string, b: string)
    decreases |a|
  {
    |b| > 0 && (|a| == 0 || (if a[0] == b[0] then StrLess(a[1..], b[1..]) else a[0] < b[0]))
  }

  lemma {:induction false} StrLessIrreflexive(a: string)
    ensures !StrLess(a, a)
    decreases |a|
  {
    if |a| > 0 { StrLessIrreflexive(a[1..]); }
  }

  lemma {:induction false} StrLessTransitive(a: string, b: string, c: string)
    requires StrLess(a, b) && StrLess(b, c)
    ensures StrLess(a, c)
    decreases |a|
  {
    if |a| > 0 && a[0] == b[0] && b[0] == c[0] {
      StrLessTransitive(a[1..], b[1..], c[1..]);
    }
  }

  /** Distinct strings are always ordered one way or the other. */
  lemma {:induction false} StrLessTotal(a: string, b: string)
    requires a != b
    ensures StrLess(a, b) || StrLess(b, a)
    decreases |a|
  {
    if |a| > 0 && |b| > 0 && a[0] == b[0] {
      assert a == [a[0]] + a[1..] && b == [b[0]] + b[1..];
      StrLessTotal(a[1..], b[1..]);
    }
  }

  /** Comparing two strings with equal-length heads: equal heads defer to the
      tails, different heads decide. */
  lemma {:induction false} StrLessAppend(p: string, x: string, q: string, y: string)
    requires |p| == |q|
    ensures StrLess(p + x, q + y) == (if p == q then StrLess(x, y) else StrLess(p, q))
    decreases |p|
  {
    if |p| > 0 {
      assert (p + x)[0] == p[0] && (q + y)[0] == q[0];
      assert (p + x)[1..] == p[1..] + x && (q + y)[1..] == q[1..] + y;
      StrLessAppend(p[1..], x, q[1..], y);
      if p[0] == q[0] && p[1..] == q[1..] {
        assert p == q;
      }
      if p == q {
        assert p[1..] == q[1..];
      }
    } else {
      assert p + x == x && q + y == y;
    }
  }

  /** On digit strings of one length, string order is numeric order. */
  lemma {:induction false} DigitsOrder(x: string, y: string)
    requires AllDigits(x) && AllDigits(y) && |x| == |y|
    ensures StrLess(x, y) <==> DigitsValue(x) < DigitsValue(y)
    decreases |x|
  {
    if |x| == 0 {
      assert !StrLess(x, y);
    } else {
      var n := |x| - 1;
      var x', y' := x[..n], y[..n];
      assert x == x' + [x[n]] && y == y' + [y[n]];
      StrLessAppend(x', [x[n]], y', [y[n]]);
      DigitsOrder(x', y');
      if x' != y' {
        DigitsInjective(x', y');
      }
    }
  }

  /** Distinct digit strings of one length have distinct values. */
  lemma {:induction false} DigitsInjective(x: string, y: string)
    requires AllDigits(x) && AllDigits(y) && |x| == |y| && x != y
    ensures DigitsValue(x) != DigitsValue(y)
    decreases |x|
  {
    var n := |x| - 1;
    if x[..n] == y[..n] {
      assert x == x[..n] + [x[n]] && y == y[..n] + [y[n]];
      assert x[n] != y[n];
    } else {
      DigitsInjective(x[..n], y[..n]);
    }
  }

  // ---------------------------------------------------------------- parseInt

  predicate IsHexDigit(c: char) {
    IsDigit(c) || 'a' <= c <= 'f' || 'A' <= c <= 'F'
  }

  function HexDigitValue(c: char): nat
    requires IsHexDigit(c)
  {
    if IsDigit(c) then DigitValue(c)
    else if 'a' <= c <= 'f' then (c as int) - ('a' as int) + 10
    else (c as int) - ('A' as int) + 10
  }

  /** The value of a string of hexadecimal digits. */
  function HexValue(s: string): nat
    requires forall i | 0 <= i < |s| :: IsHexDigit(s[i])
  {
    if |s| == 0 then 0 else HexValue(s[..|s| - 1]) * 16 + HexDigitValue(s[|s| - 1])
  }

  /** The longest prefix of `s` made of decimal digits. */
  function DigitPrefix(s: string): (z: string)
    ensures AllDigits(z) && z <= s
    ensures |z| < |s| ==> !IsDigit(s[|z|])
    decreases |s|
  {
    if |s| > 0 && IsDigit(s[0]) then [s[0]] + DigitPrefix(s[1..]) else []
  }

  /** The longest prefix of `s` made of hexadecimal digits. */
  function HexPrefix(s: string): (z: string)
    ensures (forall i | 0 <= i < |z| :: IsHexDigit(z[i])) && z <= s
    ensures |z| < |s| ==> !IsHexDigit(s[|z|])
    decreases |s|
  {
    if |s| > 0 && IsHexDigit(s[0]) then [s[0]] + HexPrefix(s[1..]) else []
  }

  /** The radix argument of `parseInt`: an explicit 10, or none at all (in which
      case a `0x` prefix switches to base 16). */
  datatype Radix = Decimal | Auto

  /** `parseInt(s, radix)`; `None` stands for NaN.  Leading whitespace is skipped,
      one sign is taken, then the longest run of digits is read. */
  function ParseInt(s: string, radix: Radix): (r: Option<int>)
    ensures s == "" ==> r.None?
    ensures radix == Decimal && |s| > 0 && IsDigit(s[0]) ==> r.Some? && r.value >= 0
  {
    var t := TrimStart(s);
    var negative := |t| > 0 && t[0] == '-';
    var u := if |t| > 0 && (t[0] == '-' || t[0] == '+') then t[1..] else t;
    var hex := radix == Auto && |u| >= 2 && u[0] == '0' && (u[1] == 'x' || u[1] == 'X');
    if hex then
      var z := HexPrefix(u[2..]);
      var v: int := HexValue(z);
      if |z| == 0 then None else Some(if negative then -v else v)
    else
      var z := DigitPrefix(u);
      var v: int := DigitsValue(z);
      if |z| == 0 then None else Some(if negative then -v else v)
  }

  /** A non-empty string of decimal digits parses, in either radix mode, to its value. */
  lemma ParseAllDigits(s: string, radix: Radix)
    requires |s| > 0 && AllDigits(s)
    ensures ParseInt(s, radix) == Some(DigitsValue(s))
  {
    assert IsDigit(s[0]) && !IsJsSpace(s[0]);
    assert TrimStart(s) == s;
    assert s[0] != '-' && s[0] != '+';
    if |s| >= 2 {
      assert IsDigit(s[1]);
      assert s[1] != 'x' && s[1] != 'X';
    }
    DigitPrefixOfDigits(s);
  }

  lemma {:induction false} DigitPrefixOfDigits(s: string)
    requires AllDigits(s)
    ensures DigitPrefix(s) == s
    decreases |s|
  {
    if |s| > 0 {
      DigitPrefixOfDigits(s[1..]);
      assert s == [s[0]] + s[1..];
    }
  }

  /** Rendering then parsing gives the number back: `parseInt(String(n)) == n`. */
  lemma ParseNatToString(n: nat, radix: Radix)
    ensures ParseInt(NatToString(n), radix) == Some(n)
  {
    ParseAllDigits(NatToString(n), radix);
  }

  /** Distinct numbers render to distinct strings. */
  lemma NatToStringInjective(m: nat, n: nat)
    requires NatToString(m) == NatToString(n)
    ensures m == n
  {
    ParseNatToString(m, Decimal);
    ParseNatToString(n, Decimal);
  }
}

=== FILE: wrappers.dfy ===
/** Failure-compatible wrappers used throughout the model. */
module Wrappers {

  /** A value that may be absent: a missing field, a record not found, a NaN. */
  datatype Option<+T> = None | Some(value: T) {

    /** The wrapped value, or `default` when absent. */
    function GetOr(default: T): T {
      match this
      case Some(v) => v
      case None => default
    }
  }

  /** The outcome of a store operation that can be refused. */
  datatype Result<+R, +E> = Success(value: R) | Failure(error: E)

  /** Why the database refuses to save a document: a schema violation, or an id
      that the unique index already holds. */
  datatype SaveError = ValidationError | DuplicateKey
}
